=== FILE: README.md ===
# yt-dlp batch launcher — a Dafny model

`download.py` reads an INI configuration of named download jobs ("specs").
For each enabled job it builds one `python -m yt_dlp ...` command line and
runs it. Dry mode shows the command line instead of running it. A
`downloads` default section carries the launcher's own settings: the Python
executable, the spec keys, an optional PATH prefix, and the interval
switch. Other keys in it are shared defaults that every other section falls
through to. An optional jump list reorders the specs. Interval sections
(`from`/`to` as a time of day or a date-time) override options and impose a
timeout while the clock is inside their window.

The model is pure functions over immutable data:

- `Base`: `Option`, `Result` (with `:-`) and the launcher's error cases.
- `Text`: the Python string operations used.
  - `str.strip()` and argument-less `str.split()`, with Python's whitespace set.
  - `str.split(sep)` / `sep.join(...)`.
- `Assoc`: insertion-ordered string-keyed association lists as Python dicts.
  - `d[k] = v`, `dict.update`, `del d[k]`.
- `Options`: option values `Text(s) | Flag | Absent`, where `':flag:'` marks a bare flag.
- `Intervals`: instants as integer seconds (`date = t / 86400`).
  - `Interval.match` and `Interval.duration`.
  - Choosing the interval in force.
- `Specs`: specs and the parsed `DownloadData`.
  - The jump-list order as a stable insertion sort on a rank, next to an independent "group by jump position" definition.
  - `has_non_empty` and `iter_enabled_specs`.
- `Command`: command construction.
  - `add_remaining` rendering, with a decoder as its inverse.
  - The child's PATH.
  - `update_kwargs_for_timeout`.
  - `Spec.cmdargs`.
- `Config`: the configuration side.
  - configparser's default-section fall-through, as a view of a section's own pairs over the defaults.
  - `getboolean`, `safepop` and `section.pop`.
  - `parse_spec`, `parse_interval`, `specs_from_config`, `parse_main`.
- `RunLoop`: the loop of `run` as a fold over given per-spec turns. Each turn gives the instant at which the command line is built and how the process ended.

The world is passed in as parameters:

- the clock;
- the batch files' lines, as a map from path to lines;
- the launcher's own PATH;
- the `strptime` result;
- how each process ends;
- whether the post-download hook is enabled and importable.

The configuration view follows configparser's behaviour rather than
"resolved" sections. This is what makes several behaviours of the code
visible:

- `section.pop('urls', None)` raises `KeyError` when `urls` exists only in `downloads`. It reads the default, then fails to delete it.
- `safepop`'s swallowed `KeyError` leaves a default `enabled` in the spec's options.
- A default `from`/`to` is carried into an interval's overrides.

Where the documented behaviour and the code disagree, the model follows the code:

- **Failed downloads.** A process that exits with a non-zero status is not an error: `subprocess.run` is called without `check=True`. The loop goes on and calls the hook, as after a successful download (`Outcome.Exited`).
- **When ambiguity is detected.** Two matching intervals are detected only when a spec's command line is built, inside the loop. Earlier specs may already have run.
- **Interval switch with no interval keys.** With `use_intervals` on and no `interval_keys`, the interval list is empty rather than intervals being "disabled". The effect is the same.

## Model

| member | source | states |
|---|---|---|
| Text.Strip | download.py:258 | the stripped line begins and ends with a non-whitespace character (or is empty) and is no longer than the line |
| Text.StripIsMiddle | download.py:258 | whenever a line is whitespace, a trimmed middle and whitespace, `strip()` returns exactly that middle |
| Text.Words | download.py:291 | every word of `split()` is non-empty and contains no whitespace |
| Text.WordsUnwords | download.py:291 | splitting words joined by single spaces returns the same words |
| Text.WordsSkipSpace | download.py:291 | leading whitespace does not change the words of `split()` |
| Text.JoinSplit | download.py:79-81 | joining the pieces of `split(sep)` with `sep` gives the string back |
| Text.SplitJoin | download.py:79-81 | splitting a join of separator-free pieces gives the pieces back, so a PATH entry list survives the round trip |
| Assoc.PutLookup | download.py:127 | after `d[k] = v`, `k` reads `v` and every other key reads what it read before |
| Assoc.PutKeys | download.py:127 | assigning an existing key keeps the key order; a new key is appended at the end |
| Assoc.UpdateLookup | download.py:127 | after `d.update(o)`, a key of `o` reads `o`'s value and any other key reads `d`'s |
| Assoc.UpdateKeys | download.py:127 | after `d.update(o)`, the keys are `d`'s in their order followed by `o`'s new keys in `o`'s order |
| Assoc.UpdateUnique | download.py:127 | `update` never duplicates a key |
| Assoc.RemoveSpec | download.py:218 | `del d[k]` removes `k` only, keeps the order of the other keys and their values |
| Assoc.OutsideSpec | download.py:249 | the defaults a section does not shadow keep their values and order |
| Options.Classify | download.py:271-279 | a raw value is a flag exactly when it is the `':flag:'` marker, and is never absent |
| Options.ClassifyRaw | download.py:271-279 | classifying a raw value and reading it back gives the raw value |
| Options.ClassifyAllLookup | download.py:249 | classifying a section keeps each key's value (or its absence) under the same key |
| Intervals.At | download.py:168-193 | a time-of-day bound lands on the date of `dt` at that time; a date-time bound is itself |
| Intervals.CombineSplits | download.py:171 | `combine(date, time)` has that date and that time of day |
| Intervals.InstantSplits | download.py:171 | every instant is the combination of its own date and time of day |
| Intervals.Match | download.py:195-198 | equal bounds fall into the wrap branch and match every instant |
| Intervals.MatchTimeOfDay | download.py:184-198 | for time-of-day bounds `f`, `t`: the window matches iff `f <= tod <= t` when `f < t`, else iff `tod >= f` or `tod <= t` |
| Intervals.MatchDaily | download.py:184-198 | a time-of-day window matches the same instants every day |
| Intervals.Duration | download.py:168-182 | for a time-of-day end the remaining time is in `[0, 86400)` and lands on that time; when `dt` is before the end it is exactly the distance to it, otherwise the distance to the same end one day later |
| Intervals.DurationIsNextArrival | download.py:168-182 | the remaining time reaches the end time at its next arrival: no earlier instant has that time of day |
| Intervals.DurationDateTimeEnd | download.py:168-198 | inside a non-wrapping window with a date-time end, the timeout is the non-negative time left to that end |
| Intervals.StaleDateTimeWindow | download.py:168-198 | a date-time window whose end precedes its start matches two days later, and its remaining time is then negative |
| Intervals.OvernightWindow | download.py:184-198 | 23:00-01:00 matches 23:30 and 00:30 but not noon, with 90 minutes left at 23:30 |
| Intervals.Applicable | download.py:97-101 | the matching intervals are exactly the configured intervals that match, none other |
| Intervals.SelectInterval | download.py:118-122 | the error is the ambiguity error; a selected interval is configured and matches `now` |
| Intervals.NoneSelected | download.py:118-122 | nothing is selected iff no configured interval matches |
| Intervals.Ambiguity | download.py:118-120 | the ambiguity error is raised iff two configured positions both match |
| Intervals.SelectedIsOnlyHit | download.py:121-122 | a selected interval is the only configured position matching `now` |
| Specs.Rank | download.py:32-38 | a spec's key is a position in the jump list or the list's length, which stands for infinity |
| Specs.RankIsFirstIndex | download.py:32-38 | a spec's key is the first index of its name in the jump list, or one past the list (standing for infinity) when absent |
| Specs.InsertByRank | download.py:314 | inserting keeps the sequence sorted by key and adds exactly one element |
| Specs.SortSpecs | download.py:314 | the result is sorted by key and a permutation of the specs |
| Specs.SortStable | download.py:314 | specs with the same key keep their original relative order |
| Specs.SortIsJumpOrder | download.py:27-38 | the sort equals the jump order: the specs at jump position 0, then 1, and so on, then the unlisted ones, each group in original order |
| Specs.ListedFirst | download.py:27-38 | no unlisted spec comes before a jump-listed one |
| Specs.CheckJumps | download.py:295-296 | the check passes iff every jump name is among the keys |
| Specs.HasNonEmpty | download.py:255-261 | a batch file has content iff some line, stripped, is non-empty and not a `#` comment |
| Specs.Batch | download.py:112-113 | `get_batch` returns the `batch` option as the string the ini file holds, `:flag:` included, and nothing when it is missing or `None` |
| Specs.Runnable | download.py:84-113 | a spec is yielded iff it is enabled and has urls, or a non-empty batch path whose file has a meaningful line; opening the batch file fails, with that path, iff the spec is enabled, has no urls, and names a non-empty batch path that is not there |
| Specs.EnabledSpecs | download.py:84-95 | draining the generator succeeds iff no spec's batch file fails to open, and otherwise fails with the first such spec's error; on success the yielded specs are a subsequence of the specs, in their order, holding exactly the runnable ones |
| Command.Emitted | download.py:271-275 | only keys other than `urls` with a present value produce tokens |
| Command.Render | download.py:271-279 | at most two tokens per option, and none exactly when no option is emitted |
| Command.RenderDecode | download.py:271-279 | reading the tokens back (`--key` then a value unless the key is a flag) recovers the emitted options in order |
| Command.ChildPath | download.py:75-82 | no prefix leaves PATH alone; a prefix needs the launcher's PATH and is put in front of it |
| Command.ChildPathDirs | download.py:79-81 | the child's PATH entries are the prefix followed by the launcher's entries |
| Command.IntervalOverrides | download.py:115-127 | the result fails iff two intervals match; it gives a timeout iff one matches, with that interval's remaining time and its overrides merged; otherwise the options are unchanged |
| Command.OverridesWin | download.py:115-127 | when one interval matches, its overrides replace same-named spec options, other spec options keep their values, and new keys are appended in the interval's order |
| Command.IntervalTimeout | download.py:115-126 | a successful lookup gives as timeout the remaining time of any interval that matches |
| Command.CmdArgs | download.py:115-159 | the command is `[python, -m, yt_dlp]`, the options, `dlargs` verbatim and the urls last when present; it fails only on ambiguity, carries the child's PATH, has a timeout iff an interval matches, and that timeout is the matching interval's remaining time |
| Command.CmdArgsOptions | download.py:133-153 | the tokens between the prefix and `dlargs` read back as the merged options |
| Command.RateOverrideExample | download.py:115-159 | a spec with `rate=1M` inside a window overriding `rate=500K` runs with `--rate 500K` and the window's timeout |
| Config.ViewSpec | download.py:331-335 | a section reads its own value, else the default; its keys are its own followed by the unshadowed defaults |
| Config.ParseBool | download.py:245 | `getboolean` accepts exactly 1/yes/true/on and 0/no/false/off in any letter case, and rejects anything else |
| Config.ParseBoolIgnoresCase | download.py:245 | lower-casing a value does not change how it parses |
| Config.GetBool | download.py:201-221 | a missing key is false; a present one is parsed |
| Config.Take | download.py:234-235 | `section.pop(key)` succeeds only when the section itself holds the key, and returns its value with the key removed |
| Config.TakeOr | download.py:201-221 | a pop with a default returns the section's value or the default, and the key is gone afterwards |
| Config.PopUrls | download.py:246 | popping `urls` fails with `KeyError` iff only the defaults hold it, else returns the section's own urls |
| Config.ParseSpec | download.py:242-250 | the spec has the section's name, its `enabled` flag as read through the defaults, and its own urls; it fails iff `enabled` is malformed or urls only comes from the defaults |
| Config.ParseSpecOptions | download.py:242-250 | every option but `urls` reads as in the view over the defaults, except that `enabled` reads as in the defaults |
| Config.Resolved | download.py:223-231 | a bound is parsed iff one of the two formats accepts it, else the format error |
| Config.ParseInterval | download.py:233-240 | the interval succeeds iff the section itself has `from` and `to` and both parse; otherwise the error is the first of: `from` missing, `from` unparseable, `to` missing, `to` unparseable; the window is the parsed bounds and `output` is never an override |
| Config.ParseIntervalOverrides | download.py:233-240 | every override reads as in the view over the defaults, except that `from`/`to` read as in the defaults and `output` is dropped |
| Config.ParseIntervalUnique | download.py:233-240 | when the section and the defaults have distinct keys, so do the interval's overrides |
| Config.ParseSpecs | download.py:252-253 | `specs_from_config` succeeds iff every key has a section that parses; the specs are those sections' specs in key order, each named by its key; a failure is the first failing key's |
| Config.Traverse | download.py:252-253 | mapping a parser over the keys succeeds iff every key parses, and yields each key's result in order; a failure is the first failing key's |
| Config.FirstMissing | download.py:310 | names a key without a section iff there is one, and the one it names is the first such key |
| Config.ParseIntervals | download.py:304-311 | succeeds iff every key has a section and each parses; the intervals are those sections' intervals in key order, each named by its key; a missing section fails naming the first missing key even when an earlier section would not parse; otherwise a failure is the first failing section's |
| Config.ReadSettings | download.py:289-292 | `python_exe` and `keys` are required, reported in that order; `insert_path` defaults to empty; `keys` is split into words; afterwards the three are absent and every other default keeps its value |
| Config.ReadSwitch | download.py:305-306 | `use_intervals` is off when missing, on or off when it is a boolean word, and otherwise an error naming the value; `interval_keys` defaults to no keys; afterwards both are absent and every other default keeps its value |
| Config.SettingsGone | download.py:289-306 | after all five pops none of the launcher's settings is left and every other default is as configured |
| Config.ParseMain | download.py:281-323 | without `download-archive` it fails; a settings error or empty keys is reported as such; it succeeds iff the settings read, the keys are non-empty, the jump names are keys, the PATH can be built, the switch reads, the interval sections parse when switched on and the spec sections parse; then the jump list, the PATH, the intervals and the specs sorted by the jump list are as those steps give them |
| Config.JumpCheckedFirst | download.py:289-296 | once the settings are read, an unknown jump name fails before PATH, the interval switch or any section is looked at |
| Config.PathCheckedBeforeSwitch | download.py:298-306 | a PATH prefix without a PATH in the environment fails before the interval switch or any section is looked at |
| Config.MaybeSettings | download.py:289-306 | a `use_intervals = maybe` does not stop the settings from being read; it is rejected only by the switch read after them |
| Config.DefaultsReachSpecs | download.py:242-250 | a key a spec's section does not set reaches its options from the defaults, except the five launcher settings, which the pops have removed |
| RunLoop.Prepare | download.py:338-339 | a batch file that cannot be opened is that error; a spec is skipped exactly when it is not runnable; a runnable spec gives its `cmdargs` at the turn's instant or that call's error; so preparing fails iff a batch file cannot be opened or a yielded spec's instant falls into two intervals |
| RunLoop.RunFinishes | download.py:325-354 | a run gets through every spec iff every batch file it needs opens, no yielded spec's instant falls into two intervals, and, in a real run, no yielded spec's process is interrupted or fails to start |
| RunLoop.StepOf | download.py:340-354 | a preparation error aborts; a skipped spec does nothing; a dry run shows the command; a real run starts it, ends the loop with `Interrupted` on an interrupt and `LaunchFailed` on a failed start, and otherwise goes on, calling the hook only after an exit |
| RunLoop.StepSafe | download.py:340-354 | one spec shows or starts one command; only an interrupt or failed start ends the loop after starting a process; only a preparation error ends it without one |
| RunLoop.Loop | download.py:338-354 | the loop finishes iff every remaining spec prepares and, in a real run, no started process is interrupted or fails to start |
| RunLoop.LoopReaches | download.py:338-354 | once the loop reaches a spec, its trace is the events of the specs before it followed by the loop from there |
| RunLoop.ReachedCommands | download.py:338-354 | the specs the loop got past each showed or started exactly their prepared command |
| RunLoop.RealRunAt | download.py:346-354 | at a reached spec, an interrupt or failed start ends the run right after starting it; a timeout goes on without the hook; an exit goes on after the hook when it is enabled |
| RunLoop.InterruptEndsRun | download.py:350-351 | the first interrupted process ends the loop with `Interrupted`; it is the last event, and the commands started are exactly those prepared up to it |
| RunLoop.RunInterrupted | download.py:325-354 | the same for a whole real run |
| RunLoop.LoopEvents | download.py:338-354 | a dry run only shows, a real run never shows, the hook runs only when enabled and right after a process, and at most one command per spec |
| RunLoop.LoopStop | download.py:338-354 | a dry run ends normally or with an error; an interrupt or a failed start ends the loop right after that process, and only when some remaining turn has that outcome; an escaped error is a spec's preparation error |
| RunLoop.Run | download.py:338-354 | the same for a whole run over the parsed configuration: it aborts only on an unreadable batch file or interval ambiguity, and it ends with `Interrupted` or `LaunchFailed` only in a real run where some process was interrupted or failed to start |
| RunLoop.StepPreview | download.py:340-342 | for one spec a dry run and a real run skip alike, fail alike, and otherwise handle the same command line |
| RunLoop.DryRunPreviews | download.py:338-354 | the commands a real run starts are a prefix of those the dry run shows; equal when the real run finishes; the same error when it aborts |
| RunLoop.DryRunPreviewsRun | download.py:325-354 | the same for whole runs over the same world |
| RunLoop.StepAlike | download.py:346-354 | for one spec, exiting and timing out differ only in the hook call |
| RunLoop.TimeoutLikeExit | download.py:346-354 | swapping timeouts for exits changes nothing but the hook calls |
| RunLoop.DryRunShowsPlan | download.py:338-342 | a finished dry run met no error and shows every prepared command, in order |
| RunLoop.PlanIsEnabled | download.py:84-95 | with a fixed clock the prepared commands are the `cmdargs` of the specs `iter_enabled_specs` yields, in order |
| RunLoop.DryRunShowsEnabled | download.py:84-95 | with a fixed clock a finished dry run shows one command line per yielded spec: its `cmdargs` |

## Left out

- configparser file reading and `ExtendedInterpolation`: sections are given as their pairs with every `${...}` reference already substituted. The default-section fall-through is modelled.
- `strptime` formats in `resolve_datetime`: the parse is a parameter; only its failure path is modelled.
- `datetime.now()`: each spec's instant is part of its turn.
- `total_seconds()` returns a float: the model uses whole seconds.
- `subprocess.run`, the environment copy, and exception mechanics other than timeout, interrupt and failed start: outcomes are inputs. The child's environment is modelled only through its PATH.
- Printing: `list2cmdline` quoting and the `timeout=` line. A dry run records the argument list it shows.
- `main` and argparse: run's parameters are taken as given.
- `rtouch.py` and `patsort.py`: the hook is an abstract event; patsort is not used by `download.py`.
- `is_empty_batch`: it is never called, and it tests `'batch' in spec` on a mapping that the loop does not pass.
- The cached `DownloadData.env` and `parse_main`'s own `env` compute the same PATH. It is modelled once, in `Command.ChildPath`.
- Config.ParseBool: lower-cases ASCII letters only, where Python's `str.lower` covers all of Unicode.
- Config.ParseSpecs: parses each key from its unchanged section. The source's pops mutate the shared section, so a key listed twice, or a section used both as a spec and as an interval, sees the first pops on its second parse.
- Config.ParseIntervals: parses each key from its unchanged section. An interval key listed twice makes the source's second `parse_interval` raise KeyError('from'), because the first one already popped `from`; the model parses both copies.
- Config.ParseMain: a key naming `downloads` itself is treated as a missing section. The source would parse the default section as a spec.
- RunLoop.Run: batch files are a snapshot taken once. The source opens each file when the loop reaches its spec, so a file changed during the run is not modelled.
- RunLoop.Run: the hook is taken not to fail. An exception from it would escape the loop.

=== FILE: assoc.dfy ===
/** Python dicts as ordered association lists: insertion order is kept,
    assigning to an existing key keeps its position, a new key is appended. */
module Assoc {
  import opened Base

  type Assoc<V> = seq<(string, V)>

  function Keys<V>(m: Assoc<V>): (ks: seq<string>)
    ensures |ks| == |m|
    ensures forall i :: 0 <= i < |m| ==> ks[i] == m[i].0
  {
    if m == [] then [] else [m[0].0] + Keys(m[1..])
  }

  /** What a dict's keys are: pairwise distinct. */
  predicate UniqueKeys<V>(m: Assoc<V>) {
    forall i, j :: 0 <= i < j < |m| ==> m[i].0 != m[j].0
  }

  /** `m.get(k)`: the value stored under `k`, if any. */
  function Lookup<V>(m: Assoc<V>, k: string): (r: Option<V>)
    ensures r.Some? <==> k in Keys(m)
    ensures r.Some? ==> (k, r.value) in m
  {
    if m == [] then None
    else if m[0].0 == k then Some(m[0].1)
    else Lookup(m[1..], k)
  }

  /** `m[k] = v`. */
  function Put<V>(m: Assoc<V>, k: string, v: V): Assoc<V>
  {
    if m == [] then [(k, v)]
    else if m[0].0 == k then [(k, v)] + m[1..]
    else [m[0]] + Put(m[1..], k, v)
  }

  /** `m.update(o)`: every pair of `o` assigned in turn. */
  function Update<V>(m: Assoc<V>, o: Assoc<V>): Assoc<V>
    decreases |o|
  {
    if o == [] then m else Update(Put(m, o[0].0, o[0].1), o[1..])
  }

  /** `del m[k]` (without the KeyError): every pair under `k` dropped. */
  function Remove<V>(m: Assoc<V>, k: string): (r: Assoc<V>)
    ensures k !in Keys(r)
    ensures |r| <= |m|
  {
    if m == [] then []
    else if m[0].0 == k then Remove(m[1..], k)
    else [m[0]] + Remove(m[1..], k)
  }

  /** The keys of `xs` that `ks` lacks, in `xs` order. */
  function Fresh(ks: seq<string>, xs: seq<string>): (r: seq<string>)
    ensures forall i :: 0 <= i < |r| ==> r[i] in xs && r[i] !in ks
  {
    if xs == [] then []
    else if xs[0] in ks then Fresh(ks, xs[1..])
    else [xs[0]] + Fresh(ks, xs[1..])
  }

  /** The keys of `xs` other than `k`, in order. */
  function Without(xs: seq<string>, k: string): (r: seq<string>)
    ensures k !in r
  {
    if xs == [] then []
    else if xs[0] == k then Without(xs[1..], k)
    else [xs[0]] + Without(xs[1..], k)
  }

  lemma UniqueTail<V>(m: Assoc<V>)
    requires m != [] && UniqueKeys(m)
    ensures UniqueKeys(m[1..]) && m[0].0 !in Keys(m[1..])
  {
    var ks := Keys(m[1..]);
    forall j | 0 <= j < |ks|
      ensures ks[j] != m[0].0
    {
      assert ks[j] == m[j + 1].0;
    }
  }

  lemma ConsUnique<V>(x: (string, V), m: Assoc<V>)
    requires UniqueKeys(m) && x.0 !in Keys(m)
    ensures UniqueKeys([x] + m)
  {
    var c := [x] + m;
    forall i, j | 0 <= i < j < |c|
      ensures c[i].0 != c[j].0
    {
      assert c[j] == m[j - 1];
      if i == 0 {
        assert Keys(m)[j - 1] == m[j - 1].0;
      } else {
        assert c[i] == m[i - 1];
      }
    }
  }

  /** After `m[k] = v`, `k` holds `v` and every other key is untouched. */
  lemma {:induction false} PutLookup<V>(m: Assoc<V>, k: string, v: V, j: string)
    ensures Lookup(Put(m, k, v), j) == if j == k then Some(v) else Lookup(m, j)
    decreases |m|
  {
    if m != [] && m[0].0 != k {
      assert Put(m, k, v)[1..] == Put(m[1..], k, v);
      PutLookup(m[1..], k, v, j);
    }
  }

  /** `m[k] = v` keeps the key order, appending `k` only if it is new. */
  lemma {:induction false} PutKeys<V>(m: Assoc<V>, k: string, v: V)
    ensures Keys(Put(m, k, v)) == if k in Keys(m) then Keys(m) else Keys(m) + [k]
    decreases |m|
  {
    if m == [] {
    } else if m[0].0 == k {
      assert Keys(Put(m, k, v)) == [k] + Keys(m[1..]);
    } else {
      var p := Put(m, k, v);
      assert p[1..] == Put(m[1..], k, v);
      PutKeys(m[1..], k, v);
      assert Keys(m) == [m[0].0] + Keys(m[1..]);
      assert Keys(p) == [m[0].0] + Keys(p[1..]);
      assert k in Keys(m) <==> k in Keys(m[1..]);
      if k !in Keys(m) {
        assert [m[0].0] + (Keys(m[1..]) + [k]) == Keys(m) + [k];
      }
    }
  }

  lemma {:induction false} PutUnique<V>(m: Assoc<V>, k: string, v: V)
    requires UniqueKeys(m)
    ensures UniqueKeys(Put(m, k, v))
    decreases |m|
  {
    if m == [] {
    } else {
      UniqueTail(m);
      if m[0].0 == k {
        assert Keys(m) == [k] + Keys(m[1..]);
        ConsUnique((k, v), m[1..]);
      } else {
        PutUnique(m[1..], k, v);
        PutKeys(m[1..], k, v);
        ConsUnique(m[0], Put(m[1..], k, v));
      }
    }
  }

  /** The override law of `m.update(o)`: a key of `o` reads `o`'s value,
      every other key reads what it read in `m`. */
  lemma {:induction false} UpdateLookup<V>(m: Assoc<V>, o: Assoc<V>, j: string)
    requires UniqueKeys(o)
    ensures Lookup(Update(m, o), j) == if j in Keys(o) then Lookup(o, j) else Lookup(m, j)
    decreases |o|
  {
    if o != [] {
      UniqueTail(o);
      UpdateLookup(Put(m, o[0].0, o[0].1), o[1..], j);
      PutLookup(m, o[0].0, o[0].1, j);
      assert Keys(o) == [o[0].0] + Keys(o[1..]);
    }
  }

  lemma {:induction false} FreshSkip(ks: seq<string>, k: string, xs: seq<string>)
    requires k !in xs
    ensures Fresh(ks + [k], xs) == Fresh(ks, xs)
    decreases |xs|
  {
    if xs != [] {
      FreshSkip(ks, k, xs[1..]);
    }
  }

  /** The key order after `m.update(o)`: `m`'s keys where they were, then
      the keys only `o` has, in `o`'s order. */
  lemma {:induction false} UpdateKeys<V>(m: Assoc<V>, o: Assoc<V>)
    requires UniqueKeys(o)
    ensures Keys(Update(m, o)) == Keys(m) + Fresh(Keys(m), Keys(o))
    decreases |o|
  {
    if o == [] {
      assert Keys(m) + [] == Keys(m);
    } else {
      var k := o[0].0;
      var p := Put(m, k, o[0].1);
      UniqueTail(o);
      UpdateKeys(p, o[1..]);
      PutKeys(m, k, o[0].1);
      FreshStep(Keys(m), k, Keys(o[1..]));
      assert Keys(o) == [k] + Keys(o[1..]);
    }
  }

  /** One step of `UpdateKeys`: assigning `k` first and the rest after. */
  lemma FreshStep(ks: seq<string>, k: string, xs: seq<string>)
    requires k !in xs
    ensures (if k in ks then ks else ks + [k]) + Fresh(if k in ks then ks else ks + [k], xs)
         == ks + Fresh(ks, [k] + xs)
  {
    assert ([k] + xs)[1..] == xs;
    if k !in ks {
      FreshSkip(ks, k, xs);
      assert ks + [k] + Fresh(ks, xs) == ks + ([k] + Fresh(ks, xs));
    }
  }

  /** `m.update(o)` is still a dict. */
  lemma {:induction false} UpdateUnique<V>(m: Assoc<V>, o: Assoc<V>)
    requires UniqueKeys(m)
    ensures UniqueKeys(Update(m, o))
    decreases |o|
  {
    if o != [] {
      PutUnique(m, o[0].0, o[0].1);
      UpdateUnique(Put(m, o[0].0, o[0].1), o[1..]);
    }
  }

  /** `del m[k]` drops exactly `k`: its keys are `m`'s keys without `k`
      and every other key reads as before. */
  lemma {:induction false} RemoveSpec<V>(m: Assoc<V>, k: string, j: string)
    ensures Keys(Remove(m, k)) == Without(Keys(m), k)
    ensures Lookup(Remove(m, k), j) == if j == k then None else Lookup(m, j)
    decreases |m|
  {
    if m != [] {
      RemoveSpec(m[1..], k, j);
      assert Keys(m)[1..] == Keys(m[1..]);
      if m[0].0 != k {
        assert Remove(m, k)[1..] == Remove(m[1..], k);
      }
    }
  }

  /** The pairs of `m` whose key `ks` lacks, in order. */
  function Outside<V>(m: Assoc<V>, ks: seq<string>): (r: Assoc<V>)
    ensures |r| <= |m|
    ensures forall i :: 0 <= i < |r| ==> r[i] in m && r[i].0 !in ks
  {
    if m == [] then []
    else (if m[0].0 in ks then [] else [m[0]]) + Outside(m[1..], ks)
  }

  /** Looking up in a concatenation reads the first part first. */
  lemma {:induction false} LookupAppend<V>(a: Assoc<V>, b: Assoc<V>, k: string)
    ensures Lookup(a + b, k) == if k in Keys(a) then Lookup(a, k) else Lookup(b, k)
    decreases |a|
  {
    if a != [] {
      assert (a + b)[1..] == a[1..] + b;
      LookupAppend(a[1..], b, k);
      assert Keys(a) == [a[0].0] + Keys(a[1..]);
    } else {
      assert a + b == b;
    }
  }

  /** `Outside` hides exactly the keys of `ks` and keeps the order of the
      rest. */
  lemma {:induction false} OutsideSpec<V>(m: Assoc<V>, ks: seq<string>, k: string)
    ensures Lookup(Outside(m, ks), k) == if k in ks then None else Lookup(m, k)
    ensures Keys(Outside(m, ks)) == Fresh(ks, Keys(m))
    decreases |m|
  {
    if m != [] {
      OutsideSpec(m[1..], ks, k);
      assert Keys(m)[1..] == Keys(m[1..]);
      if m[0].0 in ks {
        assert Outside(m, ks) == Outside(m[1..], ks);
      } else {
        assert Outside(m, ks)[1..] == Outside(m[1..], ks);
      }
    }
  }

  lemma {:induction false} KeysAppend<V>(a: Assoc<V>, b: Assoc<V>)
    ensures Keys(a + b) == Keys(a) + Keys(b)
    decreases |a|
  {
    if a == [] {
      assert a + b == b;
    } else {
      assert (a + b)[1..] == a[1..] + b;
      KeysAppend(a[1..], b);
    }
  }

  /** Distinct keys are a property of the key sequence alone. */
  lemma UniqueByKeys<V, W>(a: Assoc<V>, b: Assoc<W>)
    requires Keys(a) == Keys(b) && UniqueKeys(a)
    ensures UniqueKeys(b)
  {
    forall i, j | 0 <= i < j < |b|
      ensures b[i].0 != b[j].0
    {
      assert b[i].0 == Keys(b)[i] == a[i].0;
      assert b[j].0 == Keys(b)[j] == a[j].0;
    }
  }

  /** `del m[k]` keeps a dict a dict and adds no key. */
  lemma {:induction false} RemoveUnique<V>(m: Assoc<V>, k: string)
    requires UniqueKeys(m)
    ensures UniqueKeys(Remove(m, k))
    ensures forall j :: j in Keys(Remove(m, k)) ==> j in Keys(m)
    decreases |m|
  {
    if m != [] {
      UniqueTail(m);
      RemoveUnique(m[1..], k);
      assert Keys(m) == [m[0].0] + Keys(m[1..]);
      if m[0].0 != k {
        ConsUnique(m[0], Remove(m[1..], k));
        assert Keys(Remove(m, k)) == [m[0].0] + Keys(Remove(m[1..], k));
      }
    }
  }

  /** The pairs `Outside` keeps still have distinct keys, all from `m`. */
  lemma {:induction false} OutsideUnique<V>(m: Assoc<V>, ks: seq<string>)
    requires UniqueKeys(m)
    ensures UniqueKeys(Outside(m, ks))
    ensures forall j :: j in Keys(Outside(m, ks)) ==> j in Keys(m) && j !in ks
    decreases |m|
  {
    if m != [] {
      UniqueTail(m);
      OutsideUnique(m[1..], ks);
      assert Keys(m) == [m[0].0] + Keys(m[1..]);
      if m[0].0 in ks {
        assert Outside(m, ks) == Outside(m[1..], ks);
      } else {
        assert Outside(m, ks) == [m[0]] + Outside(m[1..], ks);
        ConsUnique(m[0], Outside(m[1..], ks));
        assert Keys(Outside(m, ks)) == [m[0].0] + Keys(Outside(m[1..], ks));
      }
    }
  }

  /** Two dicts with no key in common concatenate to a dict. */
  lemma {:induction false} AppendUnique<V>(a: Assoc<V>, b: Assoc<V>)
    requires UniqueKeys(a) && UniqueKeys(b)
    requires forall i :: 0 <= i < |b| ==> b[i].0 !in Keys(a)
    ensures UniqueKeys(a + b)
    decreases |a|
  {
    if a == [] {
      assert a + b == b;
    } else {
      UniqueTail(a);
      assert Keys(a) == [a[0].0] + Keys(a[1..]);
      AppendUnique(a[1..], b);
      KeysAppend(a[1..], b);
      ConsUnique(a[0], a[1..] + b);
      SplitHead(a, b);
    }
  }

  lemma SplitHead<T>(a: seq<T>, b: seq<T>)
    requires a != []
    ensures a + b == [a[0]] + (a[1..] + b)
  {
  }
}

=== FILE: base.dfy ===
/** Failure-compatible wrappers and the error taxonomy of the downloader. */
module Base {

  datatype Option<+T> = None | Some(value: T)

  /** Success/Failure result usable with `:-`. */
  datatype Result<+T, +E> = Success(value: T) | Failure(error: E) {

    predicate IsFailure() {
      Failure?
    }

    function PropagateFailure<U>(): Result<U, E>
      requires Failure?
    {
      Failure(error)
    }

    function Extract(): T
      requires Success?
    {
      value
    }
  }

  /** Every way a run can end early. Configuration errors abort before any
      process is started; the others abort the loop where they occur. */
  datatype Error =
    | MissingArchive              // root section lacks `download-archive`
    | MissingKey(key: string)     // a required key was not found
    | NoKeys                      // `keys` splits to nothing
    | UnknownJump                 // a jump name is not one of `keys`
    | MissingSection(name: string)
    | BadBoolean(key: string, raw: string)
    | BadTimeFormat(raw: string)  // neither `%H:%M` nor `%Y-%m-%d %H:%M`
    | MissingPath                 // PATH unset while a prefix must be inserted
    | MultipleIntervals           // more than one interval matches now
    | BatchUnreadable(path: string)
}

=== FILE: command.dfy ===
/** Building one yt-dlp invocation for a spec: the interval override merge
    (`Spec.update_kwargs_for_timeout`), option rendering (`add_remaining`),
    the child's PATH (`DownloadData.env`) and the argument vector
    (`Spec.cmdargs`). */
module Command {
  import opened Base
  import opened Assoc
  import opened Options
  import opened Text
  import opened Intervals
  import opened Specs

  /** `os.pathsep` on POSIX. */
  const PathSep: char := ':'

  /** What one yt-dlp process is started with. `path` is the PATH of its
      environment (the rest of `os.environ` is passed through unchanged). */
  datatype Invocation = Invocation(args: seq<string>, path: Option<string>, timeout: Option<int>)

  /** `[python_exe, '-m', 'yt_dlp']`. */
  function Prefix(pythonExe: string): seq<string> {
    [pythonExe, "-m", "yt_dlp"]
  }

  // ---------------------------------------------------------------------
  // add_remaining
  // ---------------------------------------------------------------------

  /** `add_remaining` renders every entry except the key `urls` and `None`. */
  predicate Emits(e: (string, OptValue)) {
    e.0 != "urls" && e.1 != Absent
  }

  function Emitted(opts: Options): (r: Options)
    ensures |r| <= |opts|
    ensures forall i :: 0 <= i < |r| ==> Emits(r[i])
  {
    if opts == [] then []
    else (if Emits(opts[0]) then [opts[0]] else []) + Emitted(opts[1..])
  }

  /** The tokens of one entry: none, `--key`, or `--key value`. */
  function Tokens(e: (string, OptValue)): seq<string> {
    if !Emits(e) then []
    else match e.1
      case Flag => ["--" + e.0]
      case Text(v) => ["--" + e.0, v]
      case Absent => []
  }

  /** `add_remaining(args, data)`: the tokens of the entries, in order. */
  function Render(opts: Options): (r: seq<string>)
    ensures |r| <= 2 * |opts|
    ensures r == [] <==> Emitted(opts) == []
  {
    if opts == [] then [] else Tokens(opts[0]) + Render(opts[1..])
  }

  /** How a command-line parser that knows which options are bare flags
      reads the rendered tokens back. */
  function Decode(tokens: seq<string>, flags: set<string>): Option<Options>
    decreases |tokens|
  {
    if tokens == [] then Some([])
    else if |tokens[0]| < 2 || tokens[0][..2] != "--" then None
    else
      var key := tokens[0][2..];
      if key in flags then
        match Decode(tokens[1..], flags)
        case None => None
        case Some(rest) => Some([(key, Flag)] + rest)
      else if |tokens| < 2 then None
      else
        match Decode(tokens[2..], flags)
        case None => None
        case Some(rest) => Some([(key, Text(tokens[1]))] + rest)
  }

  /** `flags` names exactly the rendered options that are bare flags. */
  predicate FlagsAgree(opts: Options, flags: set<string>) {
    forall i :: 0 <= i < |opts| && Emits(opts[i]) ==> (opts[i].1 == Flag <==> opts[i].0 in flags)
  }

  /** Rendering loses nothing: every rendered option comes back, as a flag
      or with its value, in map order; `urls` and `None` entries are the
      only ones missing. */
  lemma {:induction false} RenderDecode(opts: Options, flags: set<string>)
    requires FlagsAgree(opts, flags)
    ensures Decode(Render(opts), flags) == Some(Emitted(opts))
    decreases |opts|
  {
    if opts != [] {
      var e, rest := opts[0], opts[1..];
      assert FlagsAgree(rest, flags) by {
        assert forall i :: 0 <= i < |rest| ==> rest[i] == opts[i + 1];
      }
      RenderDecode(rest, flags);
      assert Render(opts) == Tokens(e) + Render(rest);
      if Emits(e) {
        DecodeEntry(e, Render(rest), flags, Emitted(rest));
        assert Emitted(opts) == [e] + Emitted(rest);
      } else {
        assert Tokens(e) == [];
        assert Emitted(opts) == [] + Emitted(rest);
        assert Tokens(e) + Render(rest) == Render(rest);
        assert [] + Emitted(rest) == Emitted(rest);
      }
    }
  }

  /** One rendered entry in front of decodable tokens decodes to itself. */
  lemma DecodeEntry(e: (string, OptValue), tail: seq<string>, flags: set<string>, rest: Options)
    requires Emits(e) && (e.1 == Flag <==> e.0 in flags)
    requires Decode(tail, flags) == Some(rest)
    ensures Decode(Tokens(e) + tail, flags) == Some([e] + rest)
  {
    var key := "--" + e.0;
    assert key[..2] == "--" && key[2..] == e.0;
    match e.1
    case Flag =>
      assert ([key] + tail)[1..] == tail;
    case Text(v) =>
      assert ([key, v] + tail)[2..] == tail;
  }

  // ---------------------------------------------------------------------
  // The child's PATH
  // ---------------------------------------------------------------------

  lemma JoinCons(a: string, parts: seq<string>, sep: char)
    requires |parts| >= 1
    ensures Join([a] + parts, sep) == a + [sep] + Join(parts, sep)
  {
    assert ([a] + parts)[1..] == parts;
  }

  /** The PATH of the child environment: unchanged without a prefix;
      otherwise `insert_path` goes in front, and reading PATH fails when it
      is unset. */
  function ChildPath(insertPath: string, path: Option<string>): (r: Result<Option<string>, Error>)
    ensures insertPath == [] ==> r == Success(path)
    ensures insertPath != [] && path.None? ==> r == Failure(MissingPath)
    ensures insertPath != [] && path.Some? ==> r == Success(Some(insertPath + [PathSep] + path.value))
  {
    if insertPath == [] then Success(path)
    else match path
      case None => Failure(MissingPath)
      case Some(p) =>
        var dirs := [insertPath] + Split(p, PathSep);
        JoinSplit(p, PathSep);
        JoinCons(insertPath, Split(p, PathSep), PathSep);
        Success(Some(Join(dirs, PathSep)))
  }

  /** With a prefix free of separators, the child searches the prefix
      first and then the old PATH's directories in their old order. */
  lemma ChildPathDirs(insertPath: string, p: string)
    requires insertPath != [] && PathSep !in insertPath
    ensures ChildPath(insertPath, Some(p)).Success?
    ensures Split(ChildPath(insertPath, Some(p)).value.value, PathSep)
         == [insertPath] + Split(p, PathSep)
  {
    var parts := [insertPath] + Split(p, PathSep);
    JoinSplit(p, PathSep);
    JoinCons(insertPath, Split(p, PathSep), PathSep);
    assert forall i :: 1 <= i < |parts| ==> parts[i] == Split(p, PathSep)[i - 1];
    SplitJoin(parts, PathSep);
  }

  // ---------------------------------------------------------------------
  // update_kwargs_for_timeout
  // ---------------------------------------------------------------------

  /** `Spec.update_kwargs_for_timeout`: with one interval matching `now`,
      the timeout is that interval's remaining duration and its overrides
      are merged into the options; with none, nothing changes; with more,
      the run fails. */
  function IntervalOverrides(ivs: seq<NamedInterval>, now: int, extra: Options)
    : (r: Result<(Option<int>, Options), Error>)
    ensures r.Failure? <==> HitPair(ivs, now)
    ensures r.Failure? ==> r.error == MultipleIntervals
    ensures r.Success? && r.value.0.None? ==> r.value.1 == extra
    ensures r.Success? ==> (r.value.0.Some? <==> AnyHit(ivs, now))
    ensures r.Success? && r.value.0.Some? ==>
      exists i :: 0 <= i < |ivs| && Hits(ivs[i], now)
        && r.value.0.value == Duration(ivs[i].window, now)
        && r.value.1 == Update(extra, ivs[i].overrides)
  {
    Ambiguity(ivs, now);
    NoneSelected(ivs, now);
    match SelectInterval(ivs, now)
    case Failure(e) => Failure(e)
    case Success(None) => Success((None, extra))
    case Success(Some(x)) =>
      SelectedIsOnlyHit(ivs, now);
      Success((Some(Duration(x.window, now)), Update(extra, x.overrides)))
  }

  /** The merge order: an override replaces the spec's value under the same
      key, keys only the spec has keep their values, the spec's keys keep
      their positions and keys only the override has are appended. */
  lemma OverridesWin(ivs: seq<NamedInterval>, now: int, extra: Options, i: nat, k: string)
    requires i < |ivs| && UniqueKeys(ivs[i].overrides)
    requires forall j :: 0 <= j < |ivs| && j != i ==> !Hits(ivs[j], now)
    requires Hits(ivs[i], now)
    ensures IntervalOverrides(ivs, now, extra).Success?
    ensures var (timeout, merged) := IntervalOverrides(ivs, now, extra).value;
      && timeout == Some(Duration(ivs[i].window, now))
      && Lookup(merged, k) == (if k in Keys(ivs[i].overrides) then Lookup(ivs[i].overrides, k) else Lookup(extra, k))
      && Keys(merged) == Keys(extra) + Fresh(Keys(extra), Keys(ivs[i].overrides))
  {
    var r := IntervalOverrides(ivs, now, extra);
    forall a, b | 0 <= a < b < |ivs|
      ensures !(Hits(ivs[a], now) && Hits(ivs[b], now))
    {
    }
    var j :| 0 <= j < |ivs| && Hits(ivs[j], now)
      && r.value.0.value == Duration(ivs[j].window, now)
      && r.value.1 == Update(extra, ivs[j].overrides);
    assert j == i;
    UpdateLookup(extra, ivs[i].overrides, k);
    UpdateKeys(extra, ivs[i].overrides);
  }

  /** Without two matching positions, any two matches are one. */
  lemma OnlyHit(ivs: seq<NamedInterval>, now: int, i: nat, j: nat)
    requires i < |ivs| && j < |ivs| && Hits(ivs[i], now) && Hits(ivs[j], now)
    requires !HitPair(ivs, now)
    ensures i == j
  {
  }

  /** The timeout is the remaining time of whichever interval matches. */
  lemma IntervalTimeout(ivs: seq<NamedInterval>, now: int, extra: Options)
    ensures var r := IntervalOverrides(ivs, now, extra);
      r.Success? ==> forall i :: 0 <= i < |ivs| && Hits(ivs[i], now) ==> r.value.0 == Some(Duration(ivs[i].window, now))
  {
    var r := IntervalOverrides(ivs, now, extra);
    if r.Success? {
      forall i | 0 <= i < |ivs| && Hits(ivs[i], now)
        ensures r.value.0 == Some(Duration(ivs[i].window, now))
      {
        var j :| 0 <= j < |ivs| && Hits(ivs[j], now) && r.value.0.value == Duration(ivs[j].window, now);
        OnlyHit(ivs, now, i, j);
      }
    }
  }

  // ---------------------------------------------------------------------
  // cmdargs
  // ---------------------------------------------------------------------

  /** The trailing positional argument: the urls when set and non-empty. */
  function UrlsTail(spec: Spec): seq<string> {
    if HasUrls(spec) then [spec.urls.value] else []
  }

  /** The options the spec is rendered with, and the timeout, as
      `cmdargs` prepares them before rendering. */
  function Prepared(spec: Spec, data: DownloadData, useIntervals: bool, now: int)
    : Result<(Option<int>, Options), Error>
  {
    if useIntervals then IntervalOverrides(data.intervals, now, spec.options)
    else Success((None, spec.options))
  }

  /** `Spec.cmdargs`: the interpreter prefix, the rendered options, the
      pass-through arguments verbatim, and the urls last when present. */
  function CmdArgs(spec: Spec, data: DownloadData, dlargs: seq<string>, useIntervals: bool, now: int)
    : (r: Result<Invocation, Error>)
    ensures r.Failure? <==> useIntervals && HitPair(data.intervals, now)
    ensures r.Failure? ==> r.error == MultipleIntervals
    ensures r.Success? ==>
      var a := r.value.args;
      && |a| >= 3 + |dlargs| + |UrlsTail(spec)|
      && a[..3] == [data.pythonExe, "-m", "yt_dlp"]
      && a[|a| - |UrlsTail(spec)| - |dlargs|..|a| - |UrlsTail(spec)|] == dlargs
      && (HasUrls(spec) ==> a[|a| - 1] == spec.urls.value)
    ensures r.Success? ==> r.value.path == data.path
    ensures r.Success? ==>
      (r.value.timeout.Some? <==> useIntervals && AnyHit(data.intervals, now))
    ensures r.Success? && useIntervals ==>
      forall i :: 0 <= i < |data.intervals| && Hits(data.intervals[i], now) ==>
        r.value.timeout == Some(Duration(data.intervals[i].window, now))
  {
    IntervalTimeout(data.intervals, now, spec.options);
    var (timeout, extra) :- Prepared(spec, data, useIntervals, now);
    var a := Prefix(data.pythonExe) + Render(extra) + dlargs + UrlsTail(spec);
    assert a[..3] == Prefix(data.pythonExe);
    assert a[|a| - |UrlsTail(spec)| - |dlargs|..|a| - |UrlsTail(spec)|] == dlargs;
    Success(Invocation(a, data.path, timeout))
  }

  /** Between the prefix and the pass-through arguments sit exactly the
      prepared options, readable back key by key. */
  lemma CmdArgsOptions(spec: Spec, data: DownloadData, dlargs: seq<string>, useIntervals: bool, now: int,
                       flags: set<string>)
    requires CmdArgs(spec, data, dlargs, useIntervals, now).Success?
    requires FlagsAgree(Prepared(spec, data, useIntervals, now).value.1, flags)
    ensures var a := CmdArgs(spec, data, dlargs, useIntervals, now).value.args;
      Decode(a[3..|a| - |UrlsTail(spec)| - |dlargs|], flags)
        == Some(Emitted(Prepared(spec, data, useIntervals, now).value.1))
  {
    var extra := Prepared(spec, data, useIntervals, now).value.1;
    CmdArgsShape(spec, data, dlargs, useIntervals, now);
    Middle(Prefix(data.pythonExe), Render(extra), dlargs, UrlsTail(spec));
    RenderDecode(extra, flags);
  }

  /** The command line is the prefix, the rendered options, the
      pass-through arguments and the URL, in that order. */
  lemma CmdArgsShape(spec: Spec, data: DownloadData, dlargs: seq<string>, useIntervals: bool, now: int)
    requires CmdArgs(spec, data, dlargs, useIntervals, now).Success?
    ensures Prepared(spec, data, useIntervals, now).Success?
    ensures CmdArgs(spec, data, dlargs, useIntervals, now).value.args
         == Prefix(data.pythonExe) + Render(Prepared(spec, data, useIntervals, now).value.1) + dlargs + UrlsTail(spec)
  {
  }

  lemma Middle<T>(p: seq<T>, m: seq<T>, d: seq<T>, u: seq<T>)
    ensures var a := p + m + d + u;
      a[|p|..|a| - |u| - |d|] == m
  {
    var a := p + m + d + u;
    assert a[|p|..|a| - |u| - |d|] == a[|p|..|p| + |m|];
  }

  /** Merge precedence seen on the command line: a spec with `rate=1M` run
      inside a matching interval overriding `rate=500K` is invoked with
      `--rate 500K` and never with `1M`. */
  lemma RateOverrideExample(exe: string, now: int, w: Interval)
    requires Match(w, now)
    ensures var spec := Spec("s", true, None, [("rate", Text("1M"))]);
      var data := DownloadData(exe, [spec], [], [], [NamedInterval("night", w, [("rate", Text("500K"))])], None);
      CmdArgs(spec, data, [], true, now)
        == Success(Invocation([exe, "-m", "yt_dlp", "--rate", "500K"], None, Some(Duration(w, now))))
  {
    var spec := Spec("s", true, None, [("rate", Text("1M"))]);
    var ni := NamedInterval("night", w, [("rate", Text("500K"))]);
    var data := DownloadData(exe, [spec], [], [], [ni], None);
    var merged := [("rate", Text("500K"))];
    assert Hits(ni, now);
    assert Update(spec.options, ni.overrides) == merged;
    var p := Prepared(spec, data, true, now);
    assert p.Success?;
    assert p.value == (Some(Duration(w, now)), merged);
    assert merged[1..] == [];
    assert "rate"[0] != "urls"[0];
    assert "--" + "rate" == "--rate";
    assert Tokens(merged[0]) == ["--rate", "500K"];
    assert Render(merged) == ["--rate", "500K"] + [];
    assert UrlsTail(spec) == [];
    assert Prefix(exe) + Render(merged) + [] + [] == [exe, "-m", "yt_dlp", "--rate", "500K"];
    assert CmdArgs(spec, data, [], true, now).value.args == Prefix(exe) + Render(merged) + [] + [];
  }
}

=== FILE: config.dfy ===
/** Reading the ini configuration: `parse_spec`, `parse_interval` and
    `parse_main`. The parser is created with `downloads` as its default
    section, so every other section falls through to whatever `downloads`
    still holds when it is read; `parse_main` pops its own keys from
    `downloads` first so that they do not reach the specs. */
module Config {
  import opened Base
  import opened Assoc
  import opened Options
  import opened Text
  import opened Intervals
  import opened Specs
  import opened Command

  /** The key/value pairs of one section, with every `${...}` reference
      already substituted. */
  type Section = Assoc<string>

  // ---------------------------------------------------------------------
  // Section views and pops
  // ---------------------------------------------------------------------

  /** What a section proxy shows: its own pairs, then the default
      section's pairs for keys it lacks. */
  function View(own: Section, defaults: Section): Section {
    own + Outside(defaults, Keys(own))
  }

  /** A key reads its own value when the section has one and falls
      through to the default section otherwise; the keys are the section's
      own keys followed by the default keys it lacks. */
  lemma ViewSpec(own: Section, defaults: Section, k: string)
    ensures Lookup(View(own, defaults), k)
         == if k in Keys(own) then Lookup(own, k) else Lookup(defaults, k)
    ensures Keys(View(own, defaults)) == Keys(own) + Fresh(Keys(own), Keys(defaults))
  {
    LookupAppend(own, Outside(defaults, Keys(own)), k);
    OutsideSpec(defaults, Keys(own), k);
    KeysAppend(own, Outside(defaults, Keys(own)));
  }

  /** ASCII lower case. */
  function Lower(s: string): (r: string)
    ensures |r| == |s|
    ensures forall i :: 0 <= i < |s| ==> r[i] == (if 'A' <= s[i] <= 'Z' then s[i] - 'A' + 'a' else s[i])
  {
    if s == [] then [] else [if 'A' <= s[0] <= 'Z' then s[0] - 'A' + 'a' else s[0]] + Lower(s[1..])
  }

  /** configparser's `BOOLEAN_STATES`. */
  const TrueWords: set<string> := {"1", "yes", "true", "on"}
  const FalseWords: set<string> := {"0", "no", "false", "off"}

  /** `getboolean` on a present value: case-insensitive, and anything else
      is an error naming the key and the value. */
  function ParseBool(key: string, raw: string): (r: Result<bool, Error>)
    ensures r == Success(true) <==> Lower(raw) in TrueWords
    ensures r == Success(false) <==> Lower(raw) in FalseWords
    ensures r.Failure? <==> Lower(raw) !in TrueWords + FalseWords
    ensures r.Failure? ==> r.error == BadBoolean(key, raw)
  {
    var w := Lower(raw);
    if w in TrueWords then Success(true)
    else if w in FalseWords then Success(false)
    else Failure(BadBoolean(key, raw))
  }

  lemma LowerIdempotent(s: string)
    ensures Lower(Lower(s)) == Lower(s)
  {
  }

  /** Case does not matter to `getboolean`: a value and its lower-cased
      spelling read the same. */
  lemma ParseBoolIgnoresCase(key: string, raw: string)
    ensures ParseBool(key, Lower(raw)).Success? == ParseBool(key, raw).Success?
    ensures ParseBool(key, raw).Success? ==> ParseBool(key, Lower(raw)) == ParseBool(key, raw)
  {
    LowerIdempotent(raw);
  }

  /** `getboolean(key, None)`, with the missing value's `None` read as the
      false it behaves as everywhere it is used. */
  function GetBool(view: Section, key: string): (r: Result<bool, Error>)
    ensures Lookup(view, key).None? ==> r == Success(false)
    ensures Lookup(view, key).Some? ==> r == ParseBool(key, Lookup(view, key).value)
  {
    match Lookup(view, key)
    case None => Success(false)
    case Some(raw) => ParseBool(key, raw)
  }

  /** `section.pop(key)` without a default. Deleting a key a section only
      inherits raises `KeyError` just like a missing key, so only the
      section's own pairs count. */
  function Take(own: Section, key: string): (r: Result<(string, Section), Error>)
    ensures r.Success? <==> key in Keys(own)
    ensures r.Failure? ==> r.error == MissingKey(key)
    ensures r.Success? ==> Lookup(own, key) == Some(r.value.0) && r.value.1 == Remove(own, key)
  {
    match Lookup(own, key)
    case None => Failure(MissingKey(key))
    case Some(v) => Success((v, Remove(own, key)))
  }

  /** `pop(key, default)` / `safepop(..., default=...)` on the default
      section itself, whose pairs are all its own. */
  function TakeOr(own: Section, key: string, default: string): (r: (string, Section))
    ensures r.0 == (if key in Keys(own) then Lookup(own, key).value else default)
    ensures key !in Keys(r.1) && r.1 == Remove(own, key)
  {
    match Lookup(own, key)
    case None => (default, Remove(own, key))
    case Some(v) => (v, Remove(own, key))
  }

  // ---------------------------------------------------------------------
  // parse_spec
  // ---------------------------------------------------------------------

  /** `section.pop('urls', None)` on a download section: absent everywhere
      gives `None`; present in the section gives its value; present only
      in the default section reads the value but then fails to delete it. */
  function PopUrls(own: Section, defaults: Section): (r: Result<(Option<string>, Section), Error>)
    ensures r.Failure? <==> "urls" !in Keys(own) && "urls" in Keys(defaults)
    ensures r.Failure? ==> r.error == MissingKey("urls")
    ensures r.Success? ==> r.value.0 == Lookup(own, "urls") && r.value.1 == Remove(own, "urls")
  {
    if "urls" in Keys(own) then Success((Lookup(own, "urls"), Remove(own, "urls")))
    else if "urls" in Keys(defaults) then Failure(MissingKey("urls"))
    else
      RemoveSpec(own, "urls", "urls");
      RemoveAbsent(own, "urls");
      Success((None, own))
  }

  lemma {:induction false} RemoveAbsent(m: Section, k: string)
    requires k !in Keys(m)
    ensures Remove(m, k) == m
    decreases |m|
  {
    if m != [] {
      assert Keys(m) == [m[0].0] + Keys(m[1..]);
      RemoveAbsent(m[1..], k);
    }
  }

  /** `parse_spec`: `enabled` is read through the fallthrough (missing is
      false) and deleted from the section's own pairs, `urls` is popped,
      and every pair the section then shows becomes an option. */
  function ParseSpec(name: string, own: Section, defaults: Section): (r: Result<Spec, Error>)
    ensures r.Success? ==> r.value.name == name
    ensures r.Success? ==> r.value.enabled == (GetBool(View(own, defaults), "enabled") == Success(true))
    ensures r.Success? ==> r.value.urls == Lookup(own, "urls")
    ensures r.Failure? <==>
      GetBool(View(own, defaults), "enabled").Failure? || ("urls" !in Keys(own) && "urls" in Keys(defaults))
    ensures r.Failure? ==> r.error == MissingKey("urls") || r.error.BadBoolean?
  {
    var enabled :- GetBool(View(own, defaults), "enabled");
    var own1 := Remove(own, "enabled");
    RemoveSpec(own, "enabled", "urls");
    var popped :- PopUrls(own1, defaults);
    Success(Spec(name, enabled, popped.0, ClassifyAll(View(popped.1, defaults))))
  }

  /** The options of a parsed spec: every key but `urls` reads what the
      section shows, tagged, except `enabled`, which was deleted from the
      section's own pairs and so shows only the default section's value. */
  lemma ParseSpecOptions(name: string, own: Section, defaults: Section, k: string)
    requires ParseSpec(name, own, defaults).Success?
    requires k != "urls"
    ensures Lookup(ParseSpec(name, own, defaults).value.options, k)
         == Tag(if k == "enabled" then Lookup(defaults, k) else Lookup(View(own, defaults), k))
  {
    var own2 := Remove(Remove(own, "enabled"), "urls");
    assert ParseSpec(name, own, defaults).value.options == ClassifyAll(View(own2, defaults));
    ClassifyAllLookup(View(own2, defaults), k);
    PoppedView(own, defaults, "enabled", "urls", k);
  }

  /** After popping `a` and `b` from a section's own pairs, those two keys
      show the default section's values and every other key is unchanged. */
  lemma PoppedView(own: Section, defaults: Section, a: string, b: string, k: string)
    ensures Lookup(View(Remove(Remove(own, a), b), defaults), k)
         == if k == a || k == b then Lookup(defaults, k) else Lookup(View(own, defaults), k)
  {
    var own1 := Remove(own, a);
    var own2 := Remove(own1, b);
    ViewSpec(own2, defaults, k);
    ViewSpec(own, defaults, k);
    RemoveSpec(own1, b, k);
    RemoveSpec(own, a, k);
  }

  // ---------------------------------------------------------------------
  // parse_interval
  // ---------------------------------------------------------------------

  /** The key `parse_interval` keeps out of the overrides, because the
      default section's `output` would otherwise reach every interval. */
  const Excluded := "output"

  /** `parse_interval`: pop and resolve `from`, then `to`; everything
      else the section shows, less `output`, overrides the spec's options
      while the interval applies. `resolve` stands for `resolve_datetime`. */
  function ParseInterval(name: string, own: Section, defaults: Section, resolve: string -> Option<Bound>)
    : (r: Result<NamedInterval, Error>)
    ensures r.Success? ==> "from" in Keys(own) && "to" in Keys(own) && r.value.name == name
    ensures r.Success? ==> Some(r.value.window.from) == resolve(Lookup(own, "from").value)
    ensures r.Success? ==> Some(r.value.window.to) == resolve(Lookup(own, "to").value)
    ensures r.Success? ==> Excluded !in Keys(r.value.overrides)
    ensures r.Success? <==>
      && "from" in Keys(own) && resolve(Lookup(own, "from").value).Some?
      && "to" in Keys(own) && resolve(Lookup(own, "to").value).Some?
    ensures "from" !in Keys(own) ==> r == Failure(MissingKey("from"))
    ensures "from" in Keys(own) && resolve(Lookup(own, "from").value).None? ==>
      r == Failure(BadTimeFormat(Lookup(own, "from").value))
    ensures "from" in Keys(own) && resolve(Lookup(own, "from").value).Some? && "to" !in Keys(own) ==>
      r == Failure(MissingKey("to"))
    ensures "from" in Keys(own) && resolve(Lookup(own, "from").value).Some? && "to" in Keys(own)
            && resolve(Lookup(own, "to").value).None? ==>
      r == Failure(BadTimeFormat(Lookup(own, "to").value))
  {
    RemoveSpec(own, "from", "to");
    var popFrom :- Take(own, "from");
    var from :- Resolved(resolve, popFrom.0);
    var popTo :- Take(popFrom.1, "to");
    var to :- Resolved(resolve, popTo.0);
    var remaining := Remove(View(popTo.1, defaults), Excluded);
    assert Keys(ClassifyAll(remaining)) == Keys(remaining);
    Success(NamedInterval(name, Interval(from, to), ClassifyAll(remaining)))
  }

  /** `resolve_datetime`'s `ValueError` as an error value. */
  function Resolved(resolve: string -> Option<Bound>, raw: string): (r: Result<Bound, Error>)
    ensures r.Success? <==> resolve(raw).Some?
    ensures r.Success? ==> r.value == resolve(raw).value
    ensures r.Failure? ==> r.error == BadTimeFormat(raw)
  {
    match resolve(raw)
    case None => Failure(BadTimeFormat(raw))
    case Some(b) => Success(b)
  }

  /** The overrides of a parsed interval: `output` never, and every other
      key reads what the section shows, except that `from` and `to`, once
      popped from the section's own pairs, show only the default section's
      values. */
  lemma ParseIntervalOverrides(name: string, own: Section, defaults: Section,
                               resolve: string -> Option<Bound>, k: string)
    requires ParseInterval(name, own, defaults, resolve).Success?
    ensures Lookup(ParseInterval(name, own, defaults, resolve).value.overrides, k)
         == if k == Excluded then None
            else Tag(if k == "from" || k == "to" then Lookup(defaults, k) else Lookup(View(own, defaults), k))
  {
    var shown := View(Remove(Remove(own, "from"), "to"), defaults);
    ParseIntervalShape(name, own, defaults, resolve);
    ClassifyAllLookup(Remove(shown, Excluded), k);
    RemoveSpec(shown, Excluded, k);
    PoppedView(own, defaults, "from", "to", k);
  }

  lemma ParseIntervalShape(name: string, own: Section, defaults: Section, resolve: string -> Option<Bound>)
    requires ParseInterval(name, own, defaults, resolve).Success?
    ensures ParseInterval(name, own, defaults, resolve).value.overrides
         == ClassifyAll(Remove(View(Remove(Remove(own, "from"), "to"), defaults), Excluded))
  {
    var popFrom := Take(own, "from");
    assert popFrom.Success? && popFrom.value.1 == Remove(own, "from");
    var popTo := Take(popFrom.value.1, "to");
    assert popTo.Success? && popTo.value.1 == Remove(Remove(own, "from"), "to");
  }

  /** A section seen through its defaults is still a dict. */
  lemma ViewUnique(own: Section, defaults: Section)
    requires UniqueKeys(own) && UniqueKeys(defaults)
    ensures UniqueKeys(View(own, defaults))
  {
    OutsideUnique(defaults, Keys(own));
    AppendUnique(own, Outside(defaults, Keys(own)));
  }

  /** The overrides of a parsed interval have distinct keys whenever the
      section and the default section do, as configparser guarantees. */
  lemma ParseIntervalUnique(name: string, own: Section, defaults: Section, resolve: string -> Option<Bound>)
    requires ParseInterval(name, own, defaults, resolve).Success?
    requires UniqueKeys(own) && UniqueKeys(defaults)
    ensures UniqueKeys(ParseInterval(name, own, defaults, resolve).value.overrides)
  {
    ParseIntervalShape(name, own, defaults, resolve);
    RemoveUnique(own, "from");
    RemoveUnique(Remove(own, "from"), "to");
    var shown := View(Remove(Remove(own, "from"), "to"), defaults);
    ViewUnique(Remove(Remove(own, "from"), "to"), defaults);
    RemoveUnique(shown, Excluded);
    UniqueByKeys(Remove(shown, Excluded), ClassifyAll(Remove(shown, Excluded)));
  }

  // ---------------------------------------------------------------------
  // parse_main
  // ---------------------------------------------------------------------

  /** `[f(key) for key in keys]` where `f` may raise: the results in key
      order, or the error of the first key that fails. */
  function Traverse<T>(keys: seq<string>, f: string -> Result<T, Error>): (r: Result<seq<T>, Error>)
    ensures r.Success? <==> forall i :: 0 <= i < |keys| ==> f(keys[i]).Success?
    ensures r.Success? ==> |r.value| == |keys|
    ensures r.Success? ==> forall i :: 0 <= i < |keys| ==> f(keys[i]) == Success(r.value[i])
    ensures r.Failure? ==> exists i :: (0 <= i < |keys| && f(keys[i]) == Failure(r.error)
      && forall j :: 0 <= j < i ==> f(keys[j]).Success?)
  {
    if keys == [] then Success([])
    else
      var rest := Traverse(keys[1..], f);
      assert forall i :: 1 <= i < |keys| ==> keys[i] == keys[1..][i - 1];
      match f(keys[0])
      case Failure(e) => Failure(e)
      case Success(x) =>
        match rest
        case Failure(e) =>
          var i :| 0 <= i < |keys| - 1 && f(keys[1..][i]) == Failure(e)
            && forall j :: 0 <= j < i ==> f(keys[1..][j]).Success?;
          assert f(keys[i + 1]) == Failure(e);
          Failure(e)
        case Success(t) => Success([x] + t)
  }

  /** `parse_spec(cp[key])`: a key without a section is a `KeyError`. */
  function SpecAt(key: string, sections: map<string, Section>, defaults: Section): Result<Spec, Error> {
    if key in sections then ParseSpec(key, sections[key], defaults) else Failure(MissingSection(key))
  }

  /** The sections named by `keys`, each parsed as a spec, in key order. */
  function ParseSpecs(keys: seq<string>, sections: map<string, Section>, defaults: Section)
    : (r: Result<seq<Spec>, Error>)
    ensures r.Success? <==> forall i :: 0 <= i < |keys| ==>
      keys[i] in sections && ParseSpec(keys[i], sections[keys[i]], defaults).Success?
    ensures r.Success? ==> |r.value| == |keys| && forall i :: 0 <= i < |keys| ==>
      r.value[i] == ParseSpec(keys[i], sections[keys[i]], defaults).value && r.value[i].name == keys[i]
    ensures r.Failure? ==> exists i :: (0 <= i < |keys| && SpecAt(keys[i], sections, defaults) == Failure(r.error)
      && forall j :: 0 <= j < i ==> SpecAt(keys[j], sections, defaults).Success?)
  {
    Traverse(keys, k => SpecAt(k, sections, defaults))
  }

  /** `[cp[key] for key in keys]`: the first key without a section. */
  function FirstMissing(keys: seq<string>, sections: map<string, Section>): (r: Option<string>)
    ensures r.None? <==> forall i :: 0 <= i < |keys| ==> keys[i] in sections
    ensures r.Some? ==> r.value in keys && r.value !in sections
    ensures r.Some? ==> exists i :: (&& 0 <= i < |keys| && keys[i] == r.value
                                     && forall j :: 0 <= j < i ==> keys[j] in sections)
  {
    if keys == [] then None
    else if keys[0] !in sections then Some(keys[0])
    else
      assert forall i :: 1 <= i < |keys| ==> keys[i] == keys[1..][i - 1];
      FirstMissing(keys[1..], sections)
  }

  /** `parse_interval(cp[key])`. */
  function IntervalAt(key: string, sections: map<string, Section>, defaults: Section,
                      resolve: string -> Option<Bound>): Result<NamedInterval, Error> {
    if key in sections then ParseInterval(key, sections[key], defaults, resolve) else Failure(MissingSection(key))
  }

  /** The interval sections parsed in key order; all of them are looked
      up before any is parsed. */
  function ParseIntervals(keys: seq<string>, sections: map<string, Section>, defaults: Section,
                          resolve: string -> Option<Bound>)
    : (r: Result<seq<NamedInterval>, Error>)
    ensures r.Success? <==> forall i :: 0 <= i < |keys| ==>
      keys[i] in sections && ParseInterval(keys[i], sections[keys[i]], defaults, resolve).Success?
    ensures r.Success? ==> |r.value| == |keys| && forall i :: 0 <= i < |keys| ==>
      r.value[i] == ParseInterval(keys[i], sections[keys[i]], defaults, resolve).value && r.value[i].name == keys[i]
    ensures forall i :: (0 <= i < |keys| && keys[i] !in sections
                         && (forall j :: 0 <= j < i ==> keys[j] in sections)) ==>
      r == Failure(MissingSection(keys[i]))
    ensures (forall i :: 0 <= i < |keys| ==> keys[i] in sections) && r.Failure? ==>
      exists i :: (&& 0 <= i < |keys| && ParseInterval(keys[i], sections[keys[i]], defaults, resolve) == Failure(r.error)
                   && forall j :: 0 <= j < i ==> ParseInterval(keys[j], sections[keys[j]], defaults, resolve).Success?)
  {
    match FirstMissing(keys, sections)
    case Some(k) => Failure(MissingSection(k))
    case None => Traverse(keys, k => IntervalAt(k, sections, defaults, resolve))
  }

  /** What `parse_main` pops from `downloads` first: the Python
      executable, the PATH prefix and the spec keys, and what is left. */
  datatype Settings = Settings(pythonExe: string, insertPath: string, keys: seq<string>, rest: Section)

  /** What it pops once the key list, the jump list and the PATH have been
      checked: the interval switch and the interval keys, and what is then
      left for the other sections to fall through to. */
  datatype Switch = Switch(useIntervals: bool, intervalKeys: seq<string>, rest: Section)

  const FirstPops: set<string> := {"python_exe", "insert_path", "keys"}
  const SwitchPops: set<string> := {"use_intervals", "interval_keys"}

  /** The keys of `downloads` that configure the launcher itself. */
  const OwnSettings: set<string> := FirstPops + SwitchPops

  /** The first three pops from `downloads`, in source order. */
  function ReadSettings(defaults: Section): (r: Result<Settings, Error>)
    ensures r.Success? <==> "python_exe" in Keys(defaults) && "keys" in Keys(defaults)
    ensures "python_exe" !in Keys(defaults) ==> r == Failure(MissingKey("python_exe"))
    ensures "python_exe" in Keys(defaults) && "keys" !in Keys(defaults) ==> r == Failure(MissingKey("keys"))
    ensures r.Success? ==> r.value.pythonExe == Lookup(defaults, "python_exe").value
    ensures r.Success? ==> r.value.insertPath == (if "insert_path" in Keys(defaults) then Lookup(defaults, "insert_path").value else "")
    ensures r.Success? ==> r.value.keys == Words(Lookup(defaults, "keys").value)
    ensures r.Success? ==> forall k :: k in FirstPops ==> k !in Keys(r.value.rest)
    ensures r.Success? ==> forall k :: k !in FirstPops ==> Lookup(r.value.rest, k) == Lookup(defaults, k)
  {
    RemoveSpec(defaults, "python_exe", "insert_path");
    RemoveSpec(defaults, "python_exe", "keys");
    var (exe, d1) :- Take(defaults, "python_exe");
    RemoveSpec(d1, "insert_path", "keys");
    var (ins, d2) := TakeOr(d1, "insert_path", "");
    var (keysRaw, d3) :- Take(d2, "keys");
    FirstGone(defaults, d1, d2, d3);
    Success(Settings(exe, ins, Words(keysRaw), d3))
  }

  lemma FirstGone(d0: Section, d1: Section, d2: Section, d3: Section)
    requires d1 == Remove(d0, "python_exe") && d2 == Remove(d1, "insert_path") && d3 == Remove(d2, "keys")
    ensures forall k :: k in FirstPops ==> k !in Keys(d3)
    ensures forall k :: k !in FirstPops ==> Lookup(d3, k) == Lookup(d0, k)
  {
    forall k
      ensures Lookup(d3, k) == if k in FirstPops then None else Lookup(d0, k)
    {
      RemoveSpec(d2, "keys", k);
      RemoveSpec(d1, "insert_path", k);
      RemoveSpec(d0, "python_exe", k);
    }
  }

  /** `safepop(section, 'use_intervals', 'getboolean')` and
      `safepop(section, 'interval_keys', default='').split()`: a missing
      switch is off, a malformed one is an error, missing keys are none. */
  function ReadSwitch(d: Section): (r: Result<Switch, Error>)
    ensures r.Failure? <==>
      "use_intervals" in Keys(d) && Lower(Lookup(d, "use_intervals").value) !in TrueWords + FalseWords
    ensures r.Failure? ==> r.error == BadBoolean("use_intervals", Lookup(d, "use_intervals").value)
    ensures r.Success? ==>
      (r.value.useIntervals <==> "use_intervals" in Keys(d) && Lower(Lookup(d, "use_intervals").value) in TrueWords)
    ensures r.Success? ==>
      r.value.intervalKeys == Words(if "interval_keys" in Keys(d) then Lookup(d, "interval_keys").value else "")
    ensures r.Success? ==> forall k :: k in SwitchPops ==> k !in Keys(r.value.rest)
    ensures r.Success? ==> forall k :: k !in SwitchPops ==> Lookup(r.value.rest, k) == Lookup(d, k)
  {
    var use :- GetBool(d, "use_intervals");
    var d4 := Remove(d, "use_intervals");
    RemoveSpec(d, "use_intervals", "interval_keys");
    var (ik, d5) := TakeOr(d4, "interval_keys", "");
    assert ik == if "interval_keys" in Keys(d) then Lookup(d, "interval_keys").value else "";
    SwitchGone(d, d4, d5);
    Success(Switch(use, Words(ik), d5))
  }

  lemma SwitchGone(d: Section, d4: Section, d5: Section)
    requires d4 == Remove(d, "use_intervals") && d5 == Remove(d4, "interval_keys")
    ensures forall k :: k in SwitchPops ==> k !in Keys(d5)
    ensures forall k :: k !in SwitchPops ==> Lookup(d5, k) == Lookup(d, k)
  {
    forall k
      ensures Lookup(d5, k) == if k in SwitchPops then None else Lookup(d, k)
    {
      RemoveSpec(d4, "interval_keys", k);
      RemoveSpec(d, "use_intervals", k);
    }
  }

  /** After both rounds of pops, the launcher's own settings are gone from
      `downloads` and every other default keeps its value. */
  lemma {:induction false} SettingsGone(defaults: Section)
    requires ReadSettings(defaults).Success? && ReadSwitch(ReadSettings(defaults).value.rest).Success?
    ensures var rest := ReadSwitch(ReadSettings(defaults).value.rest).value.rest;
      && (forall k :: k in OwnSettings ==> k !in Keys(rest))
      && (forall k :: k !in OwnSettings ==> Lookup(rest, k) == Lookup(defaults, k))
  {
    var st := ReadSettings(defaults).value;
    var sw := ReadSwitch(st.rest).value;
    forall k | k in FirstPops
      ensures k !in Keys(sw.rest)
    {
      assert Lookup(sw.rest, k) == Lookup(st.rest, k);
    }
  }

  /** `parse_main`: check the archive, pop the executable, the PATH
      prefix and the keys, reject an empty key list and unknown jump
      names, build the child's PATH, pop the interval switch and keys,
      parse the intervals when switched on, parse the specs and sort them
      by the jump list. `sections` holds every section but `downloads`,
      whose pairs are `defaults`; `environPath` is the launcher's own
      PATH. */
  function ParseMain(defaults: Section, sections: map<string, Section>, jumps: seq<string>,
                     environPath: Option<string>, resolve: string -> Option<Bound>)
    : (r: Result<DownloadData, Error>)
    ensures "download-archive" !in Keys(defaults) ==> r == Failure(MissingArchive)
    ensures "download-archive" in Keys(defaults) && ReadSettings(defaults).Failure? ==>
      r == Failure(ReadSettings(defaults).error)
    ensures ("download-archive" in Keys(defaults) && ReadSettings(defaults).Success?
             && ReadSettings(defaults).value.keys == []) ==> r == Failure(NoKeys)
    ensures r.Success? <==>
      && "download-archive" in Keys(defaults)
      && ReadSettings(defaults).Success?
      && var st := ReadSettings(defaults).value;
      && st.keys != []
      && CheckJumps(st.keys, jumps).Success?
      && ChildPath(st.insertPath, environPath).Success?
      && ReadSwitch(st.rest).Success?
      && var sw := ReadSwitch(st.rest).value;
      && (sw.useIntervals ==> ParseIntervals(sw.intervalKeys, sections, sw.rest, resolve).Success?)
      && ParseSpecs(st.keys, sections, sw.rest).Success?
    ensures r.Success? ==> && "download-archive" in Keys(defaults)
                           && ReadSettings(defaults).Success?
                           && ReadSwitch(ReadSettings(defaults).value.rest).Success?
    ensures r.Success? ==>
      var st := ReadSettings(defaults).value;
      var sw := ReadSwitch(st.rest).value;
      && st.keys != []
      && r.value.pythonExe == st.pythonExe
      && r.value.insertPath == st.insertPath
      && r.value.jumpList == jumps
      && (forall i :: 0 <= i < |jumps| ==> jumps[i] in st.keys)
      && ChildPath(st.insertPath, environPath) == Success(r.value.path)
      && (!sw.useIntervals ==> r.value.intervals == [])
      && (sw.useIntervals ==> ParseIntervals(sw.intervalKeys, sections, sw.rest, resolve) == Success(r.value.intervals))
      && ParseSpecs(st.keys, sections, sw.rest).Success?
      && r.value.specs == SortSpecs(jumps, ParseSpecs(st.keys, sections, sw.rest).value)
      && SortedByRank(jumps, r.value.specs)
      && multiset(r.value.specs) == multiset(ParseSpecs(st.keys, sections, sw.rest).value)
  {
    if "download-archive" !in Keys(defaults) then Failure(MissingArchive)
    else
      var st :- ReadSettings(defaults);
      if st.keys == [] then Failure(NoKeys)
      else
        var _ :- CheckJumps(st.keys, jumps);
        var path :- ChildPath(st.insertPath, environPath);
        var sw :- ReadSwitch(st.rest);
        var intervals :- if sw.useIntervals then ParseIntervals(sw.intervalKeys, sections, sw.rest, resolve)
                         else Success([]);
        var specs :- ParseSpecs(st.keys, sections, sw.rest);
        Success(DownloadData(st.pythonExe, SortSpecs(jumps, specs), st.insertPath, jumps, intervals, path))
  }

  /** Jump names are checked before the PATH, the interval switch, the
      intervals or any spec section is looked at: an unknown jump name is
      reported whatever those hold. */
  lemma JumpCheckedFirst(defaults: Section, sections: map<string, Section>, jumps: seq<string>,
                         environPath: Option<string>, resolve: string -> Option<Bound>, j: nat)
    requires "download-archive" in Keys(defaults)
    requires ReadSettings(defaults).Success? && ReadSettings(defaults).value.keys != []
    requires j < |jumps| && jumps[j] !in ReadSettings(defaults).value.keys
    ensures ParseMain(defaults, sections, jumps, environPath, resolve) == Failure(UnknownJump)
  {
  }

  /** A missing PATH is reported before the interval switch is read, so a
      malformed switch does not hide it. */
  lemma PathCheckedBeforeSwitch(defaults: Section, sections: map<string, Section>, jumps: seq<string>,
                                resolve: string -> Option<Bound>)
    requires "download-archive" in Keys(defaults)
    requires ReadSettings(defaults).Success? && ReadSettings(defaults).value.keys != []
    requires CheckJumps(ReadSettings(defaults).value.keys, jumps).Success?
    requires ReadSettings(defaults).value.insertPath != []
    ensures ParseMain(defaults, sections, jumps, None, resolve) == Failure(MissingPath)
  {
  }

  /** A `downloads` section whose interval switch reads `maybe`, which
      `getboolean` rejects; `JumpCheckedFirst` still reports an unknown jump
      name for it, since the switch is read after the jump check. */
  const MaybeDefaults: Section :=
    [("download-archive", "a.txt"), ("python_exe", "py"), ("keys", "x"), ("use_intervals", "maybe")]

  lemma MaybeSettings()
    ensures ReadSettings(MaybeDefaults).Success?
    ensures ReadSettings(MaybeDefaults).value.keys == ["x"]
    ensures ReadSwitch(ReadSettings(MaybeDefaults).value.rest).Failure?
  {
    var d := MaybeDefaults;
    assert Keys(d) == ["download-archive", "python_exe", "keys", "use_intervals"];
    assert Lookup(d, "keys") == Some("x");
    SingleWord();
    assert Lookup(ReadSettings(d).value.rest, "use_intervals") == Some("maybe");
    MaybeIsNoBoolean();
  }

  lemma SingleWord()
    ensures Words("x") == ["x"]
  {
    var x := "x";
    assert x[0] == 'x' && !IsSpace(x[0]);
    assert TrimStart(x) == x;
    assert x[1..] == [];
    assert WordLength(x[1..]) == 0;
    assert WordLength(x) == 1;
    assert x[..1] == x;
    assert Words(x[1..]) == [];
  }

  lemma MaybeIsNoBoolean()
    ensures Lower("maybe") !in TrueWords + FalseWords
  {
    assert Lower("maybe")[0] == 'm';
  }

  /** What the default section still holds after all the pops reaches
      every spec as an option, unless the spec's own section sets the
      key; the launcher's own settings never do. */
  lemma DefaultsReachSpecs(defaults: Section, sections: map<string, Section>, jumps: seq<string>,
                           environPath: Option<string>, resolve: string -> Option<Bound>, i: nat, k: string)
    requires ParseMain(defaults, sections, jumps, environPath, resolve).Success?
    requires i < |ParseMain(defaults, sections, jumps, environPath, resolve).value.specs|
    requires k != "urls"
    ensures var s := ParseMain(defaults, sections, jumps, environPath, resolve).value.specs[i];
      s.name in sections && k !in Keys(sections[s.name]) ==>
        Lookup(s.options, k) == Tag(if k in OwnSettings then None else Lookup(defaults, k))
  {
    var st := ReadSettings(defaults).value;
    var sw := ReadSwitch(st.rest).value;
    var n := MainSpecIndex(defaults, sections, jumps, environPath, resolve, i);
    SpecDefaults(st.keys, sections, sw.rest, n, k);
    SettingsGone(defaults);
  }

  /** Each parsed spec is the spec of one of the keys. */
  lemma MainSpecIndex(defaults: Section, sections: map<string, Section>, jumps: seq<string>,
                      environPath: Option<string>, resolve: string -> Option<Bound>, i: nat)
    returns (n: nat)
    requires ParseMain(defaults, sections, jumps, environPath, resolve).Success?
    requires i < |ParseMain(defaults, sections, jumps, environPath, resolve).value.specs|
    ensures var st := ReadSettings(defaults).value;
      var parsed := ParseSpecs(st.keys, sections, ReadSwitch(st.rest).value.rest).value;
      n < |parsed| && parsed[n] == ParseMain(defaults, sections, jumps, environPath, resolve).value.specs[i]
  {
    var st := ReadSettings(defaults).value;
    var parsed := ParseSpecs(st.keys, sections, ReadSwitch(st.rest).value.rest).value;
    assert ParseMain(defaults, sections, jumps, environPath, resolve).value.specs == SortSpecs(jumps, parsed);
    n := SortedFrom(jumps, parsed, i);
  }

  /** Every sorted spec is one of the specs sorted. */
  lemma SortedFrom(jumps: seq<string>, parsed: seq<Spec>, i: nat) returns (n: nat)
    requires i < |SortSpecs(jumps, parsed)|
    ensures n < |parsed| && parsed[n] == SortSpecs(jumps, parsed)[i]
  {
    assert SortSpecs(jumps, parsed)[i] in multiset(parsed);
    n :| 0 <= n < |parsed| && parsed[n] == SortSpecs(jumps, parsed)[i];
  }

  /** A key a spec's own section lacks reads the default in its options. */
  lemma SpecDefaults(keys: seq<string>, sections: map<string, Section>, rest: Section, n: nat, k: string)
    requires ParseSpecs(keys, sections, rest).Success? && n < |keys| && k != "urls"
    ensures var s := ParseSpecs(keys, sections, rest).value[n];
      && s.name == keys[n] && keys[n] in sections
      && (k !in Keys(sections[keys[n]]) ==> Lookup(s.options, k) == Tag(Lookup(rest, k)))
  {
    var own := sections[keys[n]];
    if k !in Keys(own) {
      ParseSpecOptions(keys[n], own, rest, k);
      ViewSpec(own, rest, k);
    }
  }
}

=== FILE: intervals.dfy ===
/** Time windows that override a spec's options while "now" falls inside
    them. Instants are whole seconds on one time line; the calendar date of
    an instant is its day number `t / Day`. */
module Intervals {
  import opened Base
  import opened Options

  const Day: int := 86400

  /** Seconds since midnight. */
  type Tod = s: int | 0 <= s < 86400

  /** An interval end: a wall-clock time (`%H:%M`, date-agnostic) or a full
      date and time (`%Y-%m-%d %H:%M`). */
  datatype Bound = TimeOfDay(secs: Tod) | DateTime(at: int)

  datatype Interval = Interval(from: Bound, to: Bound)

  /** One parsed interval section: its name, its window and the options it
      overrides while active. */
  datatype NamedInterval = NamedInterval(name: string, window: Interval, overrides: Options)

  /** `dt.date()`, as a day number. */
  function DateOf(t: int): int {
    t / Day
  }

  /** The time of day of an instant. */
  function TodOf(t: int): Tod {
    t % Day
  }

  /** `datetime.combine(date, time)`. */
  function Combine(date: int, tod: Tod): int {
    date * Day + tod
  }

  lemma CombineSplits(date: int, tod: Tod)
    ensures DateOf(Combine(date, tod)) == date
    ensures TodOf(Combine(date, tod)) == tod
  {
  }

  lemma InstantSplits(t: int)
    ensures Combine(DateOf(t), TodOf(t)) == t
  {
  }

  /** A bound placed on the time line: a time of day lands on the date of
      `dt`, a full date-time stays where it is. */
  function At(b: Bound, dt: int): (r: int)
    ensures b.TimeOfDay? ==> DateOf(r) == DateOf(dt) && TodOf(r) == b.secs
    ensures b.DateTime? ==> r == b.at
  {
    match b
    case TimeOfDay(s) =>
      CombineSplits(DateOf(dt), s);
      Combine(DateOf(dt), s)
    case DateTime(t) => t
  }

  /** `Interval.match`. Note the strict `<`: a window whose ends coincide
      takes the wrap-around branch, and so matches every instant. */
  predicate Match(iv: Interval, dt: int)
    ensures At(iv.from, dt) == At(iv.to, dt) ==> Match(iv, dt)
  {
    var f := At(iv.from, dt);
    var t := At(iv.to, dt);
    if f < t then f <= dt <= t else dt >= f || dt <= t
  }

  /** `Interval.duration`: the time from `dt` to the window's end, where an
      end that has already passed today is taken on the next day. For a
      wall-clock end this is the wait until that clock time next comes
      round: under a day, and landing exactly on it. */
  function Duration(iv: Interval, dt: int): (r: int)
    ensures iv.to.TimeOfDay? ==> 0 <= r < Day && TodOf(dt + r) == iv.to.secs
    ensures dt <= At(iv.to, dt) ==> dt + r == At(iv.to, dt)
    ensures dt > At(iv.to, dt) ==> r == At(iv.to, dt) + Day - dt
  {
    var t := At(iv.to, dt);
    if dt <= t then t - dt
    else
      var t' := t + Day;
      var nextMidnight := Combine(DateOf(dt) + 1, 0);
      (nextMidnight - dt) + (t' - nextMidnight)
  }

  /** For wall-clock bounds the window is a set of clock times: a plain
      range when `from < to`, otherwise the wrap past midnight
      (`from == to` included, which covers the whole day). */
  lemma MatchTimeOfDay(f: Tod, t: Tod, dt: int)
    ensures Match(Interval(TimeOfDay(f), TimeOfDay(t)), dt)
        <==> if f < t then f <= TodOf(dt) <= t else TodOf(dt) >= f || TodOf(dt) <= t
  {
    var d := DateOf(dt);
    InstantSplits(dt);
    assert At(TimeOfDay(f), dt) == d * Day + f;
    assert At(TimeOfDay(t), dt) == d * Day + t;
    assert dt == d * Day + TodOf(dt);
  }

  /** A window of wall-clock bounds matches the same clock times every day. */
  lemma MatchDaily(f: Tod, t: Tod, dt: int)
    ensures Match(Interval(TimeOfDay(f), TimeOfDay(t)), dt + Day)
        == Match(Interval(TimeOfDay(f), TimeOfDay(t)), dt)
  {
    MatchTimeOfDay(f, t, dt);
    MatchTimeOfDay(f, t, dt + Day);
    assert TodOf(dt + Day) == TodOf(dt);
  }

  /** The timeout for a wall-clock end is the FIRST arrival of that clock
      time: no earlier instant from `dt` on shows it. */
  lemma DurationIsNextArrival(iv: Interval, dt: int)
    requires iv.to.TimeOfDay?
    ensures forall u :: dt <= u < dt + Duration(iv, dt) ==> TodOf(u) != iv.to.secs
  {
    var d := DateOf(dt);
    var s := iv.to.secs;
    InstantSplits(dt);
    forall u | dt <= u < dt + Duration(iv, dt)
      ensures TodOf(u) != s
    {
      var y := u - d * Day;
      assert TodOf(dt) <= y;
      if y < Day {
        CombineSplits(d, y);
        assert u == Combine(d, y);
      } else {
        CombineSplits(d + 1, y - Day);
        assert u == Combine(d + 1, y - Day);
      }
    }
  }

  /** Inside a window with a date-time end and no wrap, the timeout runs
      exactly up to that end and is never negative. */
  lemma DurationDateTimeEnd(iv: Interval, dt: int)
    requires iv.to.DateTime? && At(iv.from, dt) < iv.to.at
    requires Match(iv, dt)
    ensures Duration(iv, dt) == iv.to.at - dt >= 0
  {
  }

  /** A wrapped window with date-time ends keeps matching every later
      instant, and once more than a day has passed its end the computed
      timeout is negative. */
  lemma StaleDateTimeWindow()
    ensures var iv := Interval(DateTime(100), DateTime(0));
            Match(iv, 2 * Day) && Duration(iv, 2 * Day) == -Day
  {
  }

  /** Hours and minutes as seconds since midnight. */
  function Clock(h: nat, m: nat): Tod
    requires h < 24 && m < 60
  {
    h * 3600 + m * 60
  }

  /** The window 23:00-01:00 wraps midnight: it matches 23:30 and 00:30 on
      any day, but not noon; at 23:30 the timeout is an hour and a half. */
  lemma OvernightWindow(day: int)
    ensures var iv := Interval(TimeOfDay(Clock(23, 0)), TimeOfDay(Clock(1, 0)));
            && Match(iv, day * Day + Clock(23, 30))
            && Match(iv, day * Day + Clock(0, 30))
            && !Match(iv, day * Day + Clock(12, 0))
            && Duration(iv, day * Day + Clock(23, 30)) == 5400
  {
    var f, t := Clock(23, 0), Clock(1, 0);
    CombineSplits(day, Clock(23, 30));
    CombineSplits(day, Clock(0, 30));
    CombineSplits(day, Clock(12, 0));
    MatchTimeOfDay(f, t, day * Day + Clock(23, 30));
    MatchTimeOfDay(f, t, day * Day + Clock(0, 30));
    MatchTimeOfDay(f, t, day * Day + Clock(12, 0));
  }

  predicate Hits(ni: NamedInterval, now: int) {
    Match(ni.window, now)
  }

  /** `DownloadData.applicable_interval`: the intervals matching `now`, in
      configuration order. */
  function Applicable(ivs: seq<NamedInterval>, now: int): (r: seq<NamedInterval>)
    ensures |r| <= |ivs|
    ensures forall i :: 0 <= i < |r| ==> r[i] in ivs && Hits(r[i], now)
    ensures forall i :: 0 <= i < |ivs| && Hits(ivs[i], now) ==> ivs[i] in r
  {
    if ivs == [] then []
    else (if Hits(ivs[0], now) then [ivs[0]] else []) + Applicable(ivs[1..], now)
  }

  /** The interval in force at `now`: none, exactly one, or an ambiguity. */
  function SelectInterval(ivs: seq<NamedInterval>, now: int): (r: Result<Option<NamedInterval>, Error>)
    ensures r.Failure? ==> r.error == MultipleIntervals
    ensures r.Success? && r.value.Some? ==> r.value.value in ivs && Hits(r.value.value, now)
  {
    var m := Applicable(ivs, now);
    if |m| > 1 then Failure(MultipleIntervals)
    else if |m| == 1 then Success(Some(m[0]))
    else Success(None)
  }

  /** Some configured position matches `now`. */
  predicate AnyHit(ivs: seq<NamedInterval>, now: int) {
    exists i :: 0 <= i < |ivs| && Hits(ivs[i], now)
  }

  /** Two configured positions match `now`. */
  predicate HitPair(ivs: seq<NamedInterval>, now: int) {
    exists i, j :: 0 <= i < j < |ivs| && Hits(ivs[i], now) && Hits(ivs[j], now)
  }

  lemma AnyHitStep(ivs: seq<NamedInterval>, now: int)
    requires ivs != []
    ensures AnyHit(ivs, now) <==> Hits(ivs[0], now) || AnyHit(ivs[1..], now)
  {
    if AnyHit(ivs, now) {
      var i :| 0 <= i < |ivs| && Hits(ivs[i], now);
      if i > 0 {
        assert ivs[1..][i - 1] == ivs[i];
      }
    }
    if AnyHit(ivs[1..], now) {
      var i :| 0 <= i < |ivs| - 1 && Hits(ivs[1..][i], now);
      assert ivs[i + 1] == ivs[1..][i];
    }
  }

  lemma {:induction false} SomeHit(ivs: seq<NamedInterval>, now: int)
    ensures |Applicable(ivs, now)| >= 1 <==> AnyHit(ivs, now)
    decreases |ivs|
  {
    if ivs != [] {
      SomeHit(ivs[1..], now);
      AnyHitStep(ivs, now);
    }
  }

  /** Two applicable intervals exist exactly when two positions of the
      configuration both match `now`. */
  lemma {:induction false} TwoHits(ivs: seq<NamedInterval>, now: int)
    ensures |Applicable(ivs, now)| >= 2 <==> HitPair(ivs, now)
    decreases |ivs|
  {
    if ivs != [] {
      var rest := ivs[1..];
      TwoHits(rest, now);
      SomeHit(rest, now);
      TwoHitsStep(ivs, now);
    }
  }

  /** The pairs of hits of `ivs` are those of its tail, shifted, plus the
      first position paired with any hit of the tail. */
  lemma TwoHitsStep(ivs: seq<NamedInterval>, now: int)
    requires ivs != []
    ensures HitPair(ivs, now) <==> HitPair(ivs[1..], now) || (Hits(ivs[0], now) && AnyHit(ivs[1..], now))
  {
    if HitPair(ivs, now) {
      PairSplits(ivs, now);
    }
    if HitPair(ivs[1..], now) {
      TailPairLifts(ivs, now);
    }
    if Hits(ivs[0], now) && AnyHit(ivs[1..], now) {
      HeadPairLifts(ivs, now);
    }
  }

  /** A pair of hits either lies in the tail or starts at the head. */
  lemma PairSplits(ivs: seq<NamedInterval>, now: int)
    requires HitPair(ivs, now)
    ensures ivs != [] && (HitPair(ivs[1..], now) || (Hits(ivs[0], now) && AnyHit(ivs[1..], now)))
  {
    var i, j :| 0 <= i < j < |ivs| && Hits(ivs[i], now) && Hits(ivs[j], now);
    assert ivs[1..][j - 1] == ivs[j];
    if i > 0 {
      assert ivs[1..][i - 1] == ivs[i];
    }
  }

  lemma TailPairLifts(ivs: seq<NamedInterval>, now: int)
    requires ivs != [] && HitPair(ivs[1..], now)
    ensures HitPair(ivs, now)
  {
    var i, j :| 0 <= i < j < |ivs| - 1 && Hits(ivs[1..][i], now) && Hits(ivs[1..][j], now);
    assert ivs[i + 1] == ivs[1..][i] && ivs[j + 1] == ivs[1..][j];
  }

  lemma HeadPairLifts(ivs: seq<NamedInterval>, now: int)
    requires ivs != [] && Hits(ivs[0], now) && AnyHit(ivs[1..], now)
    ensures HitPair(ivs, now)
  {
    var j :| 0 <= j < |ivs| - 1 && Hits(ivs[1..][j], now);
    assert ivs[j + 1] == ivs[1..][j];
  }

  /** Nothing is selected exactly when no configured interval matches. */
  lemma NoneSelected(ivs: seq<NamedInterval>, now: int)
    ensures SelectInterval(ivs, now) == Success(None)
        <==> forall i :: 0 <= i < |ivs| ==> !Hits(ivs[i], now)
  {
    SomeHit(ivs, now);
  }

  /** The ambiguity error is raised exactly when two configured intervals
      match the same instant. */
  lemma Ambiguity(ivs: seq<NamedInterval>, now: int)
    ensures SelectInterval(ivs, now).Failure?
        <==> exists i, j :: 0 <= i < j < |ivs| && Hits(ivs[i], now) && Hits(ivs[j], now)
  {
    TwoHits(ivs, now);
  }

  /** A selected interval is the only configured position matching `now`. */
  lemma SelectedIsOnlyHit(ivs: seq<NamedInterval>, now: int)
    requires SelectInterval(ivs, now).Success? && SelectInterval(ivs, now).value.Some?
    ensures exists i :: (0 <= i < |ivs| && ivs[i] == SelectInterval(ivs, now).value.value
      && forall j :: 0 <= j < |ivs| && j != i ==> !Hits(ivs[j], now))
  {
    var x := SelectInterval(ivs, now).value.value;
    TwoHits(ivs, now);
    var i :| 0 <= i < |ivs| && ivs[i] == x;
    assert Hits(ivs[i], now);
    forall j | 0 <= j < |ivs| && j != i
      ensures !Hits(ivs[j], now)
    {
      var a := if i < j then i else j;
      var b := if i < j then j else i;
      assert !(Hits(ivs[a], now) && Hits(ivs[b], now));
    }
  }
}

=== FILE: options.dfy ===
/** yt-dlp option values. An ini value equal to the sentinel `:flag:` stands
    for a bare flag; a missing value is `Absent` (Python's `None`). */
module Options {
  import opened Base
  import opened Assoc

  /** The string that marks an ini option as a flag without a value
      (download.py, `IS_FLAG_VALUE`). */
  const FlagMarker: string := ":flag:"

  datatype OptValue = Text(s: string) | Flag | Absent

  type Options = Assoc<OptValue>

  /** The tag a raw ini string carries. */
  function Classify(raw: string): (v: OptValue)
    ensures v != Absent
    ensures v == Flag <==> raw == FlagMarker
  {
    if raw == FlagMarker then Flag else Text(raw)
  }

  /** The raw ini string a tagged value stands for. */
  function Raw(v: OptValue): Option<string>
  {
    match v
    case Text(s) => Some(s)
    case Flag => Some(FlagMarker)
    case Absent => None
  }

  /** Tagging loses nothing: the raw string comes back unchanged. */
  lemma ClassifyRaw(raw: string)
    ensures Raw(Classify(raw)) == Some(raw)
  {
  }

  /** A configparser section's items, tagged. */
  function ClassifyAll(section: Assoc<string>): (r: Options)
    ensures Keys(r) == Keys(section)
    ensures forall i :: 0 <= i < |r| ==> Raw(r[i].1) == Some(section[i].1)
  {
    if section == [] then []
    else [(section[0].0, Classify(section[0].1))] + ClassifyAll(section[1..])
  }

  /** A looked-up raw string, tagged. */
  function Tag(o: Option<string>): (r: Option<OptValue>)
    ensures r.None? <==> o.None?
  {
    match o
    case None => None
    case Some(raw) => Some(Classify(raw))
  }

  /** Tagging a whole section keeps every key readable with its raw value. */
  lemma {:induction false} ClassifyAllLookup(section: Assoc<string>, k: string)
    ensures Lookup(ClassifyAll(section), k) == Tag(Lookup(section, k))
    decreases |section|
  {
    if section != [] {
      ClassifyAllLookup(section[1..], k);
    }
  }
}

=== FILE: runloop.dfy ===
/** The download loop of `run`: visit the specs in order, skip those that
    have nothing to download, build each command line, and either show it
    (dry run) or start yt-dlp and wait for it. The world is a parameter:
    for the spec at position `i`, `turns[i]` says what the clock read when
    its command line was built and how its process ended, and `files`
    holds the batch files' lines. */
module RunLoop {
  import opened Base
  import opened Specs
  import opened Command
  import opened Intervals

  /** How one `subprocess.run` call ended. `Exited` covers every exit
      status: without `check=True` a failing download is not an error. */
  datatype Outcome = Exited | TimedOut | KeyboardInterrupt | StartFailed

  datatype Turn = Turn(now: int, outcome: Outcome)

  /** What the loop does that can be observed: a command line shown by a
      dry run, a process started, the post-download hook called. */
  datatype Event = Shown(args: seq<string>) | Launched(inv: Invocation) | Touched

  /** Why the loop ended: it ran out of specs, the user interrupted a
      download, a process could not be started, or another exception
      escaped. */
  datatype Stop = Finished | Interrupted | LaunchFailed | Aborted(error: Error)

  datatype Trace = Trace(events: seq<Event>, stop: Stop)

  /** The command lines shown or started, in order. */
  function Commands(events: seq<Event>): (r: seq<seq<string>>)
    ensures |r| <= |events|
  {
    if events == [] then []
    else match events[0]
      case Shown(a) => [a] + Commands(events[1..])
      case Launched(inv) => [inv.args] + Commands(events[1..])
      case Touched => Commands(events[1..])
  }

  /** The events other than hook calls. */
  function Untouched(events: seq<Event>): (r: seq<Event>)
    ensures Touched !in r
  {
    if events == [] then []
    else (if events[0] == Touched then [] else [events[0]]) + Untouched(events[1..])
  }

  /** The hook only ever runs right after a process it follows. */
  predicate TouchAfterLaunch(events: seq<Event>) {
    forall k :: 0 <= k < |events| && events[k].Touched? ==> 0 < k && events[k - 1].Launched?
  }

  lemma {:induction false} CommandsAppend(a: seq<Event>, b: seq<Event>)
    ensures Commands(a + b) == Commands(a) + Commands(b)
    decreases |a|
  {
    if a == [] {
      assert a + b == b;
    } else {
      assert (a + b)[1..] == a[1..] + b;
      CommandsAppend(a[1..], b);
    }
  }

  lemma {:induction false} UntouchedAppend(a: seq<Event>, b: seq<Event>)
    ensures Untouched(a + b) == Untouched(a) + Untouched(b)
    decreases |a|
  {
    if a == [] {
      assert a + b == b;
    } else {
      var head := if a[0] == Touched then [] else [a[0]];
      assert (a + b)[0] == a[0] && (a + b)[1..] == a[1..] + b;
      UntouchedAppend(a[1..], b);
      assert head + (Untouched(a[1..]) + Untouched(b)) == (head + Untouched(a[1..])) + Untouched(b);
    }
  }

  lemma TouchAfterLaunchAppend(a: seq<Event>, b: seq<Event>)
    requires TouchAfterLaunch(a) && TouchAfterLaunch(b)
    ensures TouchAfterLaunch(a + b)
  {
    var c := a + b;
    forall k | 0 <= k < |c| && c[k].Touched?
      ensures 0 < k && c[k - 1].Launched?
    {
      if k >= |a| {
        assert c[k] == b[k - |a|];
        if k > |a| {
          assert c[k - 1] == b[k - 1 - |a|];
        }
      }
    }
  }

  /** What the loop reads besides the turns: the parsed data, the
      pass-through arguments, whether intervals are used, the batch files. */
  datatype Launcher = Launcher(data: DownloadData, dlargs: seq<string>, useIntervals: bool,
                               files: map<string, seq<string>>)

  /** What the loop body finds for one spec before any process is
      started: an exception, nothing to do, or the command to run. */
  type Prep = Result<Option<Invocation>, Error>

  /** The work a dry run and a real run share for the spec at position
      `i`: nothing when `iter_enabled_specs` skips it, else its command. */
  function Prepare(l: Launcher, i: nat, now: int): (r: Prep)
    requires i < |l.data.specs|
    ensures r.Failure? ==> r.error.BatchUnreadable? || r.error == MultipleIntervals
    ensures Runnable(l.data.specs[i], l.files).Failure? ==> r == Failure(Runnable(l.data.specs[i], l.files).error)
    ensures r == Success(None) <==> Runnable(l.data.specs[i], l.files) == Success(false)
    ensures Runnable(l.data.specs[i], l.files) == Success(true) ==>
      r == match CmdArgs(l.data.specs[i], l.data, l.dlargs, l.useIntervals, now)
           case Failure(e) => Failure(e)
           case Success(inv) => Success(Some(inv))
    ensures r.Failure? <==>
      || Runnable(l.data.specs[i], l.files).Failure?
      || (&& Runnable(l.data.specs[i], l.files) == Success(true)
          && l.useIntervals && HitPair(l.data.intervals, now))
    ensures r.Success? && r.value.Some? ==>
      && Runnable(l.data.specs[i], l.files) == Success(true)
      && CmdArgs(l.data.specs[i], l.data, l.dlargs, l.useIntervals, now) == Success(r.value.value)
  {
    match Runnable(l.data.specs[i], l.files)
    case Failure(e) => Failure(e)
    case Success(false) => Success(None)
    case Success(true) =>
      match CmdArgs(l.data.specs[i], l.data, l.dlargs, l.useIntervals, now)
      case Failure(e) => Failure(e)
      case Success(inv) => Success(Some(inv))
  }

  /** Every spec's preparation, each at its own turn's instant. */
  function Plan(l: Launcher, turns: seq<Turn>): (p: seq<Prep>)
    requires |turns| == |l.data.specs|
    ensures |p| == |turns|
  {
    seq(|turns|, i requires 0 <= i < |turns| => Prepare(l, i, turns[i].now))
  }

  function Outcomes(turns: seq<Turn>): (o: seq<Outcome>)
    ensures |o| == |turns|
  {
    seq(|turns|, i requires 0 <= i < |turns| => turns[i].outcome)
  }

  /** One spec's share of the trace: skipped, some events and on to the
      next spec, or some events and the end of the loop. */
  datatype Step = Skip | Emit(evs: seq<Event>) | Halt(evs: seq<Event>, stop: Stop)

  /** The events of a spec after which the loop goes on: one command line
      shown, or one process started, followed by the hook only when it is
      enabled and the process was not timed out. */
  predicate Segment(evs: seq<Event>, dry: bool, hook: bool) {
    && |Commands(evs)| == 1
    && TouchAfterLaunch(evs)
    && (dry ==> |evs| == 1 && evs[0].Shown?)
    && (!dry ==> forall e :: e in evs ==> !e.Shown?)
    && (!hook ==> Touched !in evs)
  }

  /** The events of a spec that ends the loop: nothing when an exception
      escaped before a process was started, else that one process. */
  predicate Final(evs: seq<Event>, stop: Stop, dry: bool) {
    && stop != Finished
    && (dry ==> evs == [] && stop.Aborted?)
    && (if stop == Interrupted || stop == LaunchFailed then |evs| == 1 && evs[0].Launched? else evs == [])
  }

  /** The loop body for one spec: show or start its command; a timeout is
      swallowed, an interrupt ends the loop, any other exception escapes,
      and only a process that was neither interrupted nor timed out is
      followed by the hook. */
  function StepOf(p: Prep, outcome: Outcome, dry: bool, hook: bool): (s: Step)
    ensures p.Failure? ==> s == Halt([], Aborted(p.error))
    ensures s.Skip? <==> p == Success(None)
    ensures p.Success? && p.value.Some? && dry ==> s == Emit([Shown(p.value.value.args)])
    ensures p.Success? && p.value.Some? && !dry ==>
      && (s.Halt? <==> !Continues(outcome))
      && (s.Halt? ==> s.stop == if outcome == KeyboardInterrupt then Interrupted else LaunchFailed)
      && s.evs == [Launched(p.value.value)] + (if hook && outcome == Exited then [Touched] else [])
  {
    match p
    case Failure(e) => Halt([], Aborted(e))
    case Success(None) => Skip
    case Success(Some(inv)) =>
      if dry then Emit([Shown(inv.args)])
      else match outcome
        case KeyboardInterrupt => Halt([Launched(inv)], Interrupted)
        case StartFailed => Halt([Launched(inv)], LaunchFailed)
        case TimedOut => Emit([Launched(inv)])
        case Exited => Emit([Launched(inv)] + (if hook then [Touched] else []))
  }

  /** A step either goes on after one command, or ends the loop with at
      most the one process that was interrupted or failed to start; only
      preparation errors end it without a process. */
  lemma StepSafe(p: Prep, outcome: Outcome, dry: bool, hook: bool)
    ensures var s := StepOf(p, outcome, dry, hook);
      && (s.Skip? <==> p == Success(None))
      && (s.Emit? ==> Segment(s.evs, dry, hook))
      && (s.Halt? ==> Final(s.evs, s.stop, dry))
      && (s.Halt? && s.stop.Aborted? ==> p == Failure(s.stop.error))
  {
    if p.Success? && p.value.Some? {
      var inv := p.value.value;
      assert Commands([Shown(inv.args)]) == [inv.args];
      assert Commands([Launched(inv)]) == [inv.args];
      assert Commands([Launched(inv), Touched]) == [inv.args];
      assert [Launched(inv)] + [Touched] == [Launched(inv), Touched];
      assert [Launched(inv)] + [] == [Launched(inv)];
    }
  }

  /** The loop started at spec `i` gets to spec `k`: every spec in
      between is prepared without an exception and, in a real run, none of
      their processes was interrupted or failed to start. */
  predicate Reaches(plan: seq<Prep>, outcomes: seq<Outcome>, dry: bool, i: nat, k: nat)
    requires |outcomes| == |plan| && i <= k <= |plan|
  {
    forall j :: i <= j < k ==> plan[j].Success? && (!dry && plan[j].value.Some? ==> Continues(outcomes[j]))
  }

  lemma ReachesStep(plan: seq<Prep>, outcomes: seq<Outcome>, dry: bool, i: nat, k: nat)
    requires |outcomes| == |plan| && i < k <= |plan|
    ensures Reaches(plan, outcomes, dry, i, k) <==>
      && plan[i].Success? && (!dry && plan[i].value.Some? ==> Continues(outcomes[i]))
      && Reaches(plan, outcomes, dry, i + 1, k)
  {
  }

  /** The loop from position `i` on. It gets through every spec exactly
      when it reaches the end of the plan. */
  function Loop(plan: seq<Prep>, outcomes: seq<Outcome>, dry: bool, hook: bool, i: nat): (r: Trace)
    requires |outcomes| == |plan| && i <= |plan|
    ensures r.stop == Finished <==> Reaches(plan, outcomes, dry, i, |plan|)
    decreases |plan| - i
  {
    if i == |plan| then Trace([], Finished)
    else
      ReachesStep(plan, outcomes, dry, i, |plan|);
      match StepOf(plan[i], outcomes[i], dry, hook)
      case Skip => Loop(plan, outcomes, dry, hook, i + 1)
      case Halt(evs, stop) => Trace(evs, stop)
      case Emit(evs) =>
        var rest := Loop(plan, outcomes, dry, hook, i + 1);
        Trace(evs + rest.events, rest.stop)
  }

  /** What any run of the loop does: a dry run only shows, a real run
      never shows, the hook runs only when enabled and only right after a
      process, and there is at most one command per remaining spec. */
  lemma {:induction false} LoopEvents(plan: seq<Prep>, outcomes: seq<Outcome>, dry: bool, hook: bool, i: nat)
    requires |outcomes| == |plan| && i <= |plan|
    ensures var r := Loop(plan, outcomes, dry, hook, i);
      && (dry ==> forall e :: e in r.events ==> e.Shown?)
      && (!dry ==> forall e :: e in r.events ==> !e.Shown?)
      && (!hook ==> Touched !in r.events)
      && TouchAfterLaunch(r.events)
      && |Commands(r.events)| <= |plan| - i
    decreases |plan| - i
  {
    if i < |plan| {
      LoopEvents(plan, outcomes, dry, hook, i + 1);
      StepSafe(plan[i], outcomes[i], dry, hook);
      var rest := Loop(plan, outcomes, dry, hook, i + 1);
      match StepOf(plan[i], outcomes[i], dry, hook)
      case Skip =>
      case Halt(evs, stop) =>
      case Emit(evs) =>
        CommandsAppend(evs, rest.events);
        TouchAfterLaunchAppend(evs, rest.events);
    }
  }

  /** How any run of the loop ends: a dry run never in an interrupt or a
      failed start; an interrupt or failed start right after starting that
      process; an escaped error is some remaining spec's preparation
      error. */
  lemma {:induction false} LoopStop(plan: seq<Prep>, outcomes: seq<Outcome>, dry: bool, hook: bool, i: nat)
    requires |outcomes| == |plan| && i <= |plan|
    ensures var r := Loop(plan, outcomes, dry, hook, i);
      && (dry ==> r.stop == Finished || r.stop.Aborted?)
      && (r.stop == Interrupted || r.stop == LaunchFailed ==> r.events != [] && r.events[|r.events| - 1].Launched?)
      && (r.stop == Interrupted ==> KeyboardInterrupt in outcomes[i..])
      && (r.stop == LaunchFailed ==> StartFailed in outcomes[i..])
      && (r.stop.Aborted? ==> Failure(r.stop.error) in plan[i..])
    decreases |plan| - i
  {
    if i < |plan| {
      LoopStop(plan, outcomes, dry, hook, i + 1);
      StepSafe(plan[i], outcomes[i], dry, hook);
      assert plan[i + 1..] == plan[i..][1..];
      assert outcomes[i + 1..] == outcomes[i..][1..];
      var rest := Loop(plan, outcomes, dry, hook, i + 1);
      match StepOf(plan[i], outcomes[i], dry, hook)
      case Skip =>
      case Halt(evs, stop) =>
      case Emit(evs) =>
        if rest.stop == Interrupted || rest.stop == LaunchFailed {
          assert (evs + rest.events)[|evs + rest.events| - 1] == rest.events[|rest.events| - 1];
        }
    }
  }

  /** The events of the specs from `i` up to, not including, `k`. */
  function EventsBefore(plan: seq<Prep>, outcomes: seq<Outcome>, dry: bool, hook: bool, i: nat, k: nat)
    : seq<Event>
    requires |outcomes| == |plan| && i <= k <= |plan|
    decreases k - i
  {
    if i == k then []
    else match StepOf(plan[i], outcomes[i], dry, hook)
      case Emit(evs) => evs + EventsBefore(plan, outcomes, dry, hook, i + 1, k)
      case _ => EventsBefore(plan, outcomes, dry, hook, i + 1, k)
  }

  /** A step that goes on shows or starts exactly the prepared command. */
  lemma StepCommands(p: Prep, outcome: Outcome, dry: bool, hook: bool)
    requires p.Success? && p.value.Some? && (!dry ==> Continues(outcome))
    ensures StepOf(p, outcome, dry, hook).Emit?
    ensures Commands(StepOf(p, outcome, dry, hook).evs) == [p.value.value.args]
  {
    var inv := p.value.value;
    assert Commands([Shown(inv.args)]) == [inv.args];
    assert Commands([Launched(inv)]) == [inv.args];
    assert Commands([Launched(inv), Touched]) == [inv.args];
    assert [Launched(inv)] + [Touched] == [Launched(inv), Touched];
    assert [Launched(inv)] + [] == [Launched(inv)];
  }

  /** Once the loop reaches spec `k`, its trace is what the specs before
      `k` did followed by the loop from `k`. */
  lemma {:induction false} LoopReaches(plan: seq<Prep>, outcomes: seq<Outcome>, dry: bool, hook: bool,
                                       i: nat, k: nat)
    requires |outcomes| == |plan| && i <= k <= |plan| && Reaches(plan, outcomes, dry, i, k)
    ensures var pre := EventsBefore(plan, outcomes, dry, hook, i, k);
      var rest := Loop(plan, outcomes, dry, hook, k);
      Loop(plan, outcomes, dry, hook, i) == Trace(pre + rest.events, rest.stop)
    decreases k - i
  {
    if i == k {
      assert [] + Loop(plan, outcomes, dry, hook, k).events == Loop(plan, outcomes, dry, hook, k).events;
    } else {
      ReachesStep(plan, outcomes, dry, i, k);
      LoopReaches(plan, outcomes, dry, hook, i + 1, k);
      if plan[i].value.Some? {
        var evs := StepOf(plan[i], outcomes[i], dry, hook).evs;
        var pre := EventsBefore(plan, outcomes, dry, hook, i + 1, k);
        var rest := Loop(plan, outcomes, dry, hook, k);
        assert evs + (pre + rest.events) == (evs + pre) + rest.events;
      }
    }
  }

  /** The specs the loop got past each showed or started exactly their
      prepared command. */
  lemma {:induction false} ReachedCommands(plan: seq<Prep>, outcomes: seq<Outcome>, dry: bool, hook: bool,
                                           i: nat, k: nat)
    requires |outcomes| == |plan| && i <= k <= |plan| && Reaches(plan, outcomes, dry, i, k)
    ensures Commands(EventsBefore(plan, outcomes, dry, hook, i, k)) == PlannedCommands(plan[i..k])
    decreases k - i
  {
    if i == k {
      assert plan[i..k] == [];
    } else {
      ReachesStep(plan, outcomes, dry, i, k);
      ReachedCommands(plan, outcomes, dry, hook, i + 1, k);
      assert plan[i..k][0] == plan[i] && plan[i..k][1..] == plan[i + 1..k];
      if plan[i].value.Some? {
        StepCommands(plan[i], outcomes[i], dry, hook);
        CommandsAppend(StepOf(plan[i], outcomes[i], dry, hook).evs,
                       EventsBefore(plan, outcomes, dry, hook, i + 1, k));
      }
    }
  }

  /** What a real run does with the process of spec `k` once the loop
      reaches it: an interrupt or a failed start ends the run right after
      starting it, a timeout goes on without the hook, and an exit, whatever
      its status, goes on after the hook when the hook is enabled. */
  lemma RealRunAt(plan: seq<Prep>, outcomes: seq<Outcome>, hook: bool, i: nat, k: nat)
    requires |outcomes| == |plan| && i <= k < |plan| && Reaches(plan, outcomes, false, i, k)
    requires plan[k].Success? && plan[k].value.Some?
    ensures var pre := EventsBefore(plan, outcomes, false, hook, i, k);
      var r := Loop(plan, outcomes, false, hook, i);
      var rest := Loop(plan, outcomes, false, hook, k + 1);
      var inv := plan[k].value.value;
      && (outcomes[k] == KeyboardInterrupt ==> r == Trace(pre + [Launched(inv)], Interrupted))
      && (outcomes[k] == StartFailed ==> r == Trace(pre + [Launched(inv)], LaunchFailed))
      && (outcomes[k] == TimedOut ==> r == Trace(pre + [Launched(inv)] + rest.events, rest.stop))
      && (outcomes[k] == Exited ==>
            r == Trace(pre + [Launched(inv)] + (if hook then [Touched] else []) + rest.events, rest.stop))
  {
    LoopReaches(plan, outcomes, false, hook, i, k);
    RealStep(plan, outcomes, hook, k);
    var pre := EventsBefore(plan, outcomes, false, hook, i, k);
    var rest := Loop(plan, outcomes, false, hook, k + 1);
    var inv := plan[k].value.value;
    if Continues(outcomes[k]) {
      var tail := if hook && outcomes[k] == Exited then [Touched] else [];
      Regroup(pre, [Launched(inv)], tail, rest.events);
    }
  }

  /** The loop at a prepared spec of a real run, by outcome. */
  lemma RealStep(plan: seq<Prep>, outcomes: seq<Outcome>, hook: bool, k: nat)
    requires |outcomes| == |plan| && k < |plan|
    requires plan[k].Success? && plan[k].value.Some?
    ensures var r := Loop(plan, outcomes, false, hook, k);
      var rest := Loop(plan, outcomes, false, hook, k + 1);
      var inv := plan[k].value.value;
      var tail := if hook && outcomes[k] == Exited then [Touched] else [];
      && (!Continues(outcomes[k]) ==>
            r == Trace([Launched(inv)], if outcomes[k] == KeyboardInterrupt then Interrupted else LaunchFailed))
      && (Continues(outcomes[k]) ==> r == Trace(([Launched(inv)] + tail) + rest.events, rest.stop))
  {
  }

  lemma Regroup<T>(p: seq<T>, x: seq<T>, t: seq<T>, r: seq<T>)
    ensures p + ((x + t) + r) == p + x + t + r
    ensures x + [] == x
  {
  }

  lemma {:induction false} PlannedAppend(a: seq<Prep>, b: seq<Prep>)
    ensures PlannedCommands(a + b) == PlannedCommands(a) + PlannedCommands(b)
    decreases |a|
  {
    if a == [] {
      assert a + b == b;
    } else {
      assert (a + b)[0] == a[0] && (a + b)[1..] == a[1..] + b;
      PlannedAppend(a[1..], b);
    }
  }

  /** An interrupted download stops the run: the first spec whose process
      is interrupted ends the loop with `Interrupted` right after it is
      started, and the commands started are exactly those prepared up to
      and including it, so no later spec is started. */
  lemma InterruptEndsRun(plan: seq<Prep>, outcomes: seq<Outcome>, hook: bool, i: nat, k: nat)
    requires |outcomes| == |plan| && i <= k < |plan| && Reaches(plan, outcomes, false, i, k)
    requires plan[k].Success? && plan[k].value.Some? && outcomes[k] == KeyboardInterrupt
    ensures var r := Loop(plan, outcomes, false, hook, i);
      && r.stop == Interrupted
      && r.events != [] && r.events[|r.events| - 1] == Launched(plan[k].value.value)
      && Commands(r.events) == PlannedCommands(plan[i..k + 1])
  {
    RealRunAt(plan, outcomes, hook, i, k);
    ReachedCommands(plan, outcomes, false, hook, i, k);
    var pre := EventsBefore(plan, outcomes, false, hook, i, k);
    var inv := plan[k].value.value;
    CommandsAppend(pre, [Launched(inv)]);
    assert Commands([Launched(inv)]) == [inv.args];
    assert plan[i..k + 1] == plan[i..k] + [plan[k]];
    PlannedAppend(plan[i..k], [plan[k]]);
    assert PlannedCommands([plan[k]]) == [inv.args] by {
      assert [plan[k]][1..] == [];
    }
  }

  /** When a run gets through every spec: each batch file it needs opens,
      no yielded spec's instant falls into two intervals, and in a real run
      no process is interrupted or fails to start. Specs that are skipped
      are not prepared, so their instants and outcomes do not matter. */
  lemma RunFinishes(l: Launcher, dry: bool, hook: bool, turns: seq<Turn>)
    requires |turns| == |l.data.specs|
    ensures Run(l, dry, hook, turns).stop == Finished <==>
      forall i :: 0 <= i < |turns| ==>
        && Runnable(l.data.specs[i], l.files).Success?
        && (Runnable(l.data.specs[i], l.files) == Success(true) ==>
              && !(l.useIntervals && HitPair(l.data.intervals, turns[i].now))
              && (!dry ==> Continues(turns[i].outcome)))
  {
    var plan := Plan(l, turns);
    var outcomes := Outcomes(turns);
    assert Run(l, dry, hook, turns) == Loop(plan, outcomes, dry, hook, 0);
    forall i | 0 <= i < |turns|
      ensures (plan[i].Success? && (!dry && plan[i].value.Some? ==> Continues(outcomes[i])))
          <==> (&& Runnable(l.data.specs[i], l.files).Success?
                && (Runnable(l.data.specs[i], l.files) == Success(true) ==>
                      && !(l.useIntervals && HitPair(l.data.intervals, turns[i].now))
                      && (!dry ==> Continues(turns[i].outcome))))
    {
      assert plan[i] == Prepare(l, i, turns[i].now);
    }
  }

  /** `InterruptEndsRun` for a whole real run. */
  lemma RunInterrupted(l: Launcher, hook: bool, turns: seq<Turn>, k: nat)
    requires |turns| == |l.data.specs| && k < |turns|
    requires Reaches(Plan(l, turns), Outcomes(turns), false, 0, k)
    requires Plan(l, turns)[k].Success? && Plan(l, turns)[k].value.Some? && turns[k].outcome == KeyboardInterrupt
    ensures Run(l, false, hook, turns).stop == Interrupted
    ensures Commands(Run(l, false, hook, turns).events) == PlannedCommands(Plan(l, turns)[..k + 1])
  {
    var plan := Plan(l, turns);
    InterruptEndsRun(plan, Outcomes(turns), hook, 0, k);
    assert plan[0..k + 1] == plan[..k + 1];
  }

  /** `run(...)`'s loop over the parsed data. `hook` says whether the
      post-download hook is enabled and importable. */
  function Run(l: Launcher, dry: bool, hook: bool, turns: seq<Turn>): (r: Trace)
    requires |turns| == |l.data.specs|
    ensures dry ==> (r.stop == Finished || r.stop.Aborted?) && forall e :: e in r.events ==> e.Shown?
    ensures !hook ==> Touched !in r.events
    ensures TouchAfterLaunch(r.events)
    ensures r.stop.Aborted? ==> r.stop.error.BatchUnreadable? || r.stop.error == MultipleIntervals
    ensures r.stop == Interrupted ==> !dry && exists k :: 0 <= k < |turns| && turns[k].outcome == KeyboardInterrupt
    ensures r.stop == LaunchFailed ==> !dry && exists k :: 0 <= k < |turns| && turns[k].outcome == StartFailed
    ensures |Commands(r.events)| <= |l.data.specs|
  {
    var plan := Plan(l, turns);
    assert plan[0..] == plan;
    assert Outcomes(turns)[0..] == Outcomes(turns);
    assert forall k :: 0 <= k < |turns| ==> Outcomes(turns)[k] == turns[k].outcome;
    PlanFailures(l, turns);
    LoopEvents(plan, Outcomes(turns), dry, hook, 0);
    LoopStop(plan, Outcomes(turns), dry, hook, 0);
    Loop(plan, Outcomes(turns), dry, hook, 0)
  }

  /** The exceptions that can escape before a process is started. */
  lemma PlanFailures(l: Launcher, turns: seq<Turn>)
    requires |turns| == |l.data.specs|
    ensures forall p :: p in Plan(l, turns) && p.Failure? ==> p.error.BatchUnreadable? || p.error == MultipleIntervals
  {
    var plan := Plan(l, turns);
    forall p | p in plan && p.Failure?
      ensures p.error.BatchUnreadable? || p.error == MultipleIntervals
    {
      var k :| 0 <= k < |plan| && plan[k] == p;
      assert plan[k] == Prepare(l, k, turns[k].now);
    }
  }

  /** One spec in a dry run and in a real run: the same skip, the same
      escaped error, and otherwise the same command line; a real step that
      ends the loop there was interrupted or failed to start. */
  lemma StepPreview(p: Prep, outcome: Outcome, hook: bool)
    ensures var d, v := StepOf(p, outcome, true, hook), StepOf(p, outcome, false, hook);
      && (d.Skip? <==> v.Skip?)
      && (d.Halt? ==> v == d)
      && (d.Emit? ==> !v.Skip? && Commands(v.evs) == Commands(d.evs))
      && (d.Emit? && v.Halt? ==> v.stop == Interrupted || v.stop == LaunchFailed)
  {
    StepSafe(p, outcome, true, hook);
    StepSafe(p, outcome, false, hook);
    if p.Success? && p.value.Some? {
      var a := p.value.value.args;
      assert Commands([Shown(a)]) == [a];
      assert Commands([Launched(p.value.value)]) == [a];
      assert Commands([Launched(p.value.value), Touched]) == [a];
      assert [Launched(p.value.value)] + [Touched] == [Launched(p.value.value), Touched];
      assert [Launched(p.value.value)] + [] == [Launched(p.value.value)];
    }
  }

  /** A dry run previews the real one: the commands a real run starts are
      the first commands the dry run shows, a real run that gets through
      every spec starts exactly the commands the dry run shows, and a real
      run that hits an error before starting a process hits it in the dry
      run too. */
  lemma {:induction false} DryRunPreviews(plan: seq<Prep>, outcomes: seq<Outcome>, hook: bool, i: nat)
    requires |outcomes| == |plan| && i <= |plan|
    ensures var live := Loop(plan, outcomes, false, hook, i);
      var dry := Loop(plan, outcomes, true, hook, i);
      && Commands(live.events) <= Commands(dry.events)
      && (live.stop == Finished ==> dry.stop == Finished && Commands(live.events) == Commands(dry.events))
      && (live.stop.Aborted? ==> dry.stop == live.stop)
    decreases |plan| - i
  {
    if i < |plan| {
      DryRunPreviews(plan, outcomes, hook, i + 1);
      StepPreview(plan[i], outcomes[i], hook);
      var d, v := StepOf(plan[i], outcomes[i], true, hook), StepOf(plan[i], outcomes[i], false, hook);
      var liveRest, dryRest := Loop(plan, outcomes, false, hook, i + 1), Loop(plan, outcomes, true, hook, i + 1);
      if d.Emit? {
        CommandsAppend(d.evs, dryRest.events);
        if v.Emit? {
          CommandsAppend(v.evs, liveRest.events);
          AppendPrefix(Commands(d.evs), Commands(liveRest.events), Commands(dryRest.events));
        } else {
          AppendPrefix(Commands(d.evs), [], Commands(dryRest.events));
        }
      }
    }
  }

  lemma AppendPrefix<T>(c: seq<T>, x: seq<T>, y: seq<T>)
    requires x <= y
    ensures c + x <= c + y
  {
    assert (c + y)[..|c| + |x|] == c + y[..|x|];
  }

  /** `DryRunPreviews` for whole runs over the same world. */
  lemma DryRunPreviewsRun(l: Launcher, hook: bool, turns: seq<Turn>)
    requires |turns| == |l.data.specs|
    ensures var live := Run(l, false, hook, turns);
      var dry := Run(l, true, hook, turns);
      && Commands(live.events) <= Commands(dry.events)
      && (live.stop == Finished ==> dry.stop == Finished && Commands(live.events) == Commands(dry.events))
      && (live.stop.Aborted? ==> dry.stop == live.stop)
  {
    DryRunPreviews(Plan(l, turns), Outcomes(turns), hook, 0);
  }

  /** Timed out and exited are the two outcomes after which the loop goes on. */
  predicate Continues(o: Outcome) {
    o == Exited || o == TimedOut
  }

  /** One real step under two outcomes that both let the loop go on, or
      under the same outcome: the same kind of step, the same ending, and
      the same events once hook calls are set aside. */
  lemma StepAlike(p: Prep, o1: Outcome, o2: Outcome, hook: bool)
    requires o1 == o2 || (Continues(o1) && Continues(o2))
    ensures var a, b := StepOf(p, o1, false, hook), StepOf(p, o2, false, hook);
      && (a.Skip? <==> b.Skip?) && (a.Emit? <==> b.Emit?)
      && (a.Halt? ==> a == b)
      && (a.Emit? ==> Untouched(a.evs) == Untouched(b.evs))
  {
    if p.Success? && p.value.Some? && o1 != o2 {
      var l := Launched(p.value.value);
      assert Untouched([l]) == [l];
      assert [l] + [Touched] == [l, Touched];
      assert [l, Touched][1..] == [Touched] && [Touched][1..] == [];
      assert Untouched([Touched]) == [];
      assert Untouched([l, Touched]) == [l];
      assert [l] + [] == [l];
    }
  }

  /** Whether a download timed out or exited makes no difference except
      to the hook: the same processes are started and the loop ends the
      same way. */
  lemma {:induction false} TimeoutLikeExit(plan: seq<Prep>, outcomes: seq<Outcome>, other: seq<Outcome>,
                                           hook: bool, i: nat)
    requires |outcomes| == |plan| == |other| && i <= |plan|
    requires forall k :: 0 <= k < |plan| ==>
      outcomes[k] == other[k] || (Continues(outcomes[k]) && Continues(other[k]))
    ensures var a := Loop(plan, outcomes, false, hook, i);
      var b := Loop(plan, other, false, hook, i);
      Untouched(a.events) == Untouched(b.events) && a.stop == b.stop
    decreases |plan| - i
  {
    if i < |plan| {
      TimeoutLikeExit(plan, outcomes, other, hook, i + 1);
      StepAlike(plan[i], outcomes[i], other[i], hook);
      var sa, sb := StepOf(plan[i], outcomes[i], false, hook), StepOf(plan[i], other[i], false, hook);
      if sa.Emit? {
        UntouchedAppend(sa.evs, Loop(plan, outcomes, false, hook, i + 1).events);
        UntouchedAppend(sb.evs, Loop(plan, other, false, hook, i + 1).events);
      }
    }
  }

  /** The commands a plan holds, in order. */
  function PlannedCommands(plan: seq<Prep>): seq<seq<string>> {
    if plan == [] then []
    else (if plan[0].Success? && plan[0].value.Some? then [plan[0].value.value.args] else [])
         + PlannedCommands(plan[1..])
  }

  /** A dry run that gets through every spec met no exception and shows
      every prepared command. */
  lemma {:induction false} DryRunShowsPlan(plan: seq<Prep>, outcomes: seq<Outcome>, hook: bool, i: nat)
    requires |outcomes| == |plan| && i <= |plan|
    requires Loop(plan, outcomes, true, hook, i).stop == Finished
    ensures forall k :: i <= k < |plan| ==> plan[k].Success?
    ensures Commands(Loop(plan, outcomes, true, hook, i).events) == PlannedCommands(plan[i..])
    decreases |plan| - i
  {
    if i == |plan| {
      assert plan[i..] == [];
    } else {
      assert plan[i..][0] == plan[i] && plan[i..][1..] == plan[i + 1..];
      DryRunShowsPlan(plan, outcomes, hook, i + 1);
      var rest := Loop(plan, outcomes, true, hook, i + 1);
      if plan[i].Success? && plan[i].value.Some? {
        var inv := plan[i].value.value;
        CommandsAppend([Shown(inv.args)], rest.events);
        assert Commands([Shown(inv.args)]) == [inv.args];
      }
    }
  }

  /** `shown` lists, one for one, the command lines `cmdargs` builds at
      instant `t` for the specs in `enabled`. */
  predicate ShowsCmdArgs(l: Launcher, t: int, enabled: seq<Spec>, shown: seq<seq<string>>) {
    && |shown| == |enabled|
    && forall j :: 0 <= j < |enabled| ==>
         CmdArgs(enabled[j], l.data, l.dlargs, l.useIntervals, t).Success?
         && CmdArgs(enabled[j], l.data, l.dlargs, l.useIntervals, t).value.args == shown[j]
  }

  lemma ShowsCmdArgsCons(l: Launcher, t: int, x: Spec, enabled: seq<Spec>, shown: seq<seq<string>>)
    requires ShowsCmdArgs(l, t, enabled, shown)
    requires CmdArgs(x, l.data, l.dlargs, l.useIntervals, t).Success?
    ensures ShowsCmdArgs(l, t, [x] + enabled, [CmdArgs(x, l.data, l.dlargs, l.useIntervals, t).value.args] + shown)
  {
    var e, s := [x] + enabled, [CmdArgs(x, l.data, l.dlargs, l.useIntervals, t).value.args] + shown;
    forall j | 0 <= j < |e|
      ensures CmdArgs(e[j], l.data, l.dlargs, l.useIntervals, t).Success?
           && CmdArgs(e[j], l.data, l.dlargs, l.useIntervals, t).value.args == s[j]
    {
      if j > 0 {
        assert e[j] == enabled[j - 1] && s[j] == shown[j - 1];
      }
    }
  }

  /** One spec's contribution to the prepared commands: nothing when
      `iter_enabled_specs` skips it, else its `cmdargs` at the turn's
      instant. */
  lemma PlannedStep(l: Launcher, turns: seq<Turn>, i: nat)
    requires |turns| == |l.data.specs| && i < |l.data.specs|
    requires Plan(l, turns)[i].Success?
    ensures var x := l.data.specs[i];
      && Runnable(x, l.files).Success?
      && (Runnable(x, l.files).value ==> CmdArgs(x, l.data, l.dlargs, l.useIntervals, turns[i].now).Success?)
      && PlannedCommands(Plan(l, turns)[i..])
         == (if Runnable(x, l.files).value
             then [CmdArgs(x, l.data, l.dlargs, l.useIntervals, turns[i].now).value.args]
             else [])
            + PlannedCommands(Plan(l, turns)[i + 1..])
  {
    var plan := Plan(l, turns);
    assert plan[i] == Prepare(l, i, turns[i].now);
    assert plan[i..][0] == plan[i] && plan[i..][1..] == plan[i + 1..];
  }

  /** With the clock standing still at `t`, the prepared commands are the
      `cmdargs` of the specs `iter_enabled_specs` yields, in order. */
  lemma {:induction false} PlanIsEnabled(l: Launcher, turns: seq<Turn>, t: int, i: nat)
    requires |turns| == |l.data.specs| && i <= |l.data.specs|
    requires forall k :: 0 <= k < |turns| ==> turns[k].now == t
    requires forall k :: i <= k < |turns| ==> Plan(l, turns)[k].Success?
    ensures EnabledSpecs(l.data.specs[i..], l.files).Success?
    ensures ShowsCmdArgs(l, t, EnabledSpecs(l.data.specs[i..], l.files).value, PlannedCommands(Plan(l, turns)[i..]))
    decreases |l.data.specs| - i
  {
    var s := l.data.specs[i..];
    if i == |l.data.specs| {
      assert s == [] && Plan(l, turns)[i..] == [];
    } else {
      assert s[0] == l.data.specs[i] && s[1..] == l.data.specs[i + 1..];
      PlanIsEnabled(l, turns, t, i + 1);
      PlannedStep(l, turns, i);
      EnabledStep(s, l.files);
      if Runnable(s[0], l.files).value {
        ShowsCmdArgsCons(l, t, s[0], EnabledSpecs(s[1..], l.files).value, PlannedCommands(Plan(l, turns)[i + 1..]));
      }
    }
  }

  /** With the clock standing still at `t`, a dry run that gets through
      every spec shows one command line per spec `iter_enabled_specs`
      yields, in order: each such spec's `cmdargs`. */
  lemma DryRunShowsEnabled(l: Launcher, hook: bool, turns: seq<Turn>, t: int)
    requires |turns| == |l.data.specs|
    requires forall k :: 0 <= k < |turns| ==> turns[k].now == t
    requires Run(l, true, hook, turns).stop == Finished
    ensures EnabledSpecs(l.data.specs, l.files).Success?
    ensures var shown := Commands(Run(l, true, hook, turns).events);
      var enabled := EnabledSpecs(l.data.specs, l.files).value;
      && |shown| == |enabled|
      && forall j :: 0 <= j < |enabled| ==>
           CmdArgs(enabled[j], l.data, l.dlargs, l.useIntervals, t).Success?
           && CmdArgs(enabled[j], l.data, l.dlargs, l.useIntervals, t).value.args == shown[j]
  {
    var plan := Plan(l, turns);
    DryRunShowsPlan(plan, Outcomes(turns), hook, 0);
    PlanIsEnabled(l, turns, t, 0);
    assert plan[0..] == plan && l.data.specs[0..] == l.data.specs;
  }

  /** One step of `iter_enabled_specs`. */
  lemma EnabledStep(s: seq<Spec>, files: map<string, seq<string>>)
    requires s != [] && Runnable(s[0], files).Success? && EnabledSpecs(s[1..], files).Success?
    ensures EnabledSpecs(s, files).Success?
    ensures EnabledSpecs(s, files).value
         == (if Runnable(s[0], files).value then [s[0]] else []) + EnabledSpecs(s[1..], files).value
  {
  }
}

=== FILE: specs.dfy ===
/** Download specifications, their jump-list order, and which of them the
    run loop actually starts. */
module Specs {
  import opened Base
  import opened Assoc
  import opened Options
  import opened Text
  import opened Intervals

  /** One `[section]` naming a yt-dlp job. `enabled` is false when the key
      is missing (configparser's default `None` is falsy). */
  datatype Spec = Spec(name: string, enabled: bool, urls: Option<string>, options: Options)

  /** Everything `parse_main` hands to the run loop. `path` is the PATH the
      child processes see: the prefix is already inserted when one is set. */
  datatype DownloadData = DownloadData(
    pythonExe: string,
    specs: seq<Spec>,
    insertPath: string,
    jumpList: seq<string>,
    intervals: seq<NamedInterval>,
    path: Option<string>)

  // ---------------------------------------------------------------------
  // Jump-list order (`spec_order` used as the key of a stable `sorted`)
  // ---------------------------------------------------------------------

  /** `jumps.index(name)`, or `|jumps|` standing for `math.inf`. */
  function Rank(jumps: seq<string>, name: string): (r: nat)
    ensures r <= |jumps|
  {
    if jumps == [] then 0
    else if jumps[0] == name then 0
    else 1 + Rank(jumps[1..], name)
  }

  /** The rank is the position of the first occurrence of `name` in the
      jump list, and `|jumps|` exactly for names not in it. */
  lemma {:induction false} RankIsFirstIndex(jumps: seq<string>, name: string)
    ensures Rank(jumps, name) < |jumps| ==> jumps[Rank(jumps, name)] == name
    ensures forall i :: 0 <= i < Rank(jumps, name) ==> jumps[i] != name
    ensures Rank(jumps, name) == |jumps| <==> name !in jumps
    decreases |jumps|
  {
    if jumps != [] && jumps[0] != name {
      RankIsFirstIndex(jumps[1..], name);
      assert forall i :: 1 <= i < |jumps| ==> jumps[i] == jumps[1..][i - 1];
    }
  }

  predicate SortedByRank(jumps: seq<string>, s: seq<Spec>) {
    forall i, j :: 0 <= i < j < |s| ==> Rank(jumps, s[i].name) <= Rank(jumps, s[j].name)
  }

  /** Every element of a rank-sorted sequence ranks at least as its head. */
  lemma HeadRanksLowest(jumps: seq<string>, s: seq<Spec>)
    requires s != [] && SortedByRank(jumps, s)
    ensures forall y :: y in s ==> Rank(jumps, s[0].name) <= Rank(jumps, y.name)
  {
    forall y | y in s
      ensures Rank(jumps, s[0].name) <= Rank(jumps, y.name)
    {
      var j :| 0 <= j < |s| && s[j] == y;
      if j > 0 {
        assert Rank(jumps, s[0].name) <= Rank(jumps, s[j].name);
      }
    }
  }

  lemma ConsSorted(jumps: seq<string>, y: Spec, t: seq<Spec>)
    requires SortedByRank(jumps, t)
    requires forall i :: 0 <= i < |t| ==> Rank(jumps, y.name) <= Rank(jumps, t[i].name)
    ensures SortedByRank(jumps, [y] + t)
  {
    var c := [y] + t;
    forall i, j | 0 <= i < j < |c|
      ensures Rank(jumps, c[i].name) <= Rank(jumps, c[j].name)
    {
      assert c[j] == t[j - 1];
      if i > 0 {
        assert c[i] == t[i - 1];
      }
    }
  }

  /** Places `x` before the first element of `s` that does not rank below it. */
  function InsertByRank(jumps: seq<string>, x: Spec, s: seq<Spec>): (r: seq<Spec>)
    requires SortedByRank(jumps, s)
    ensures SortedByRank(jumps, r)
    ensures multiset(r) == multiset(s) + multiset{x}
    ensures forall i :: 0 <= i < |r| ==> r[i] == x || r[i] in s
  {
    if s == [] || Rank(jumps, x.name) <= Rank(jumps, s[0].name) then
      InsertFront(jumps, x, s);
      [x] + s
    else
      var t := InsertByRank(jumps, x, s[1..]);
      InsertBehind(jumps, x, s, t);
      [s[0]] + t
  }

  lemma InsertFront(jumps: seq<string>, x: Spec, s: seq<Spec>)
    requires SortedByRank(jumps, s)
    requires s == [] || Rank(jumps, x.name) <= Rank(jumps, s[0].name)
    ensures SortedByRank(jumps, [x] + s)
  {
    if s != [] {
      HeadRanksLowest(jumps, s);
    }
    ConsSorted(jumps, x, s);
  }

  lemma InsertBehind(jumps: seq<string>, x: Spec, s: seq<Spec>, t: seq<Spec>)
    requires s != [] && SortedByRank(jumps, s)
    requires Rank(jumps, s[0].name) < Rank(jumps, x.name)
    requires SortedByRank(jumps, t)
    requires multiset(t) == multiset(s[1..]) + multiset{x}
    requires forall i :: 0 <= i < |t| ==> t[i] == x || t[i] in s[1..]
    ensures SortedByRank(jumps, [s[0]] + t)
    ensures multiset([s[0]] + t) == multiset(s) + multiset{x}
    ensures forall i :: 0 <= i < |[s[0]] + t| ==> ([s[0]] + t)[i] == x || ([s[0]] + t)[i] in s
  {
    var c := [s[0]] + t;
    assert SortedByRank(jumps, c) by {
      HeadRanksLowest(jumps, s);
      forall i | 0 <= i < |t|
        ensures Rank(jumps, s[0].name) <= Rank(jumps, t[i].name)
      {
        if t[i] != x {
          InTail(s, t[i]);
        }
      }
      ConsSorted(jumps, s[0], t);
    }
    assert multiset(c) == multiset(s) + multiset{x} by {
      assert s == [s[0]] + s[1..];
    }
    forall i | 0 <= i < |c|
      ensures c[i] == x || c[i] in s
    {
      if i > 0 {
        assert c[i] == t[i - 1];
        if t[i - 1] != x {
          InTail(s, t[i - 1]);
        }
      }
    }
  }

  lemma InTail<T>(s: seq<T>, y: T)
    requires s != [] && y in s[1..]
    ensures y in s
  {
    var k :| 0 <= k < |s| - 1 && s[1..][k] == y;
    assert s[k + 1] == y;
  }

  /** `sorted(specs, key=spec_order(jumps))`: a stable sort on the rank. */
  function SortSpecs(jumps: seq<string>, specs: seq<Spec>): (r: seq<Spec>)
    ensures SortedByRank(jumps, r)
    ensures multiset(r) == multiset(specs)
  {
    if specs == [] then []
    else
      assert specs == [specs[0]] + specs[1..];
      InsertByRank(jumps, specs[0], SortSpecs(jumps, specs[1..]))
  }

  /** The specs of one rank, in their order in `s`. */
  function Layer(jumps: seq<string>, s: seq<Spec>, k: nat): (r: seq<Spec>)
    ensures forall i :: 0 <= i < |r| ==> r[i] in s && Rank(jumps, r[i].name) == k
  {
    if s == [] then []
    else (if Rank(jumps, s[0].name) == k then [s[0]] else []) + Layer(jumps, s[1..], k)
  }

  /** The intended order stated directly: the specs named `jumps[0]`, then
      those named `jumps[1]`, ... (a name's first position counts), and
      last every spec the jump list does not name, each group in its
      original order. `JumpOrder(jumps, specs, 0)` is the whole order. */
  function JumpOrder(jumps: seq<string>, s: seq<Spec>, lo: nat): seq<Spec>
    decreases |jumps| + 1 - lo
  {
    if lo > |jumps| then [] else Layer(jumps, s, lo) + JumpOrder(jumps, s, lo + 1)
  }

  /** Inserting `x` adds it to its own rank's group, in front; other
      groups are unchanged. */
  lemma {:induction false} LayerInsert(jumps: seq<string>, x: Spec, s: seq<Spec>, k: nat)
    requires SortedByRank(jumps, s)
    ensures Layer(jumps, InsertByRank(jumps, x, s), k)
         == (if Rank(jumps, x.name) == k then [x] else []) + Layer(jumps, s, k)
    decreases |s|
  {
    if s == [] || Rank(jumps, x.name) <= Rank(jumps, s[0].name) {
      assert ([x] + s)[1..] == s;
    } else {
      var t := InsertByRank(jumps, x, s[1..]);
      assert ([s[0]] + t)[1..] == t;
      LayerInsert(jumps, x, s[1..], k);
    }
  }

  /** Stability: within every rank the sort keeps the original order; in
      particular specs absent from the jump list (rank `|jumps|`) follow
      in their original relative order. */
  lemma {:induction false} SortStable(jumps: seq<string>, specs: seq<Spec>, k: nat)
    ensures Layer(jumps, SortSpecs(jumps, specs), k) == Layer(jumps, specs, k)
    decreases |specs|
  {
    if specs != [] {
      SortStable(jumps, specs[1..], k);
      LayerInsert(jumps, specs[0], SortSpecs(jumps, specs[1..]), k);
    }
  }

  lemma {:induction false} JumpOrderOfLayers(jumps: seq<string>, s: seq<Spec>, t: seq<Spec>, lo: nat)
    requires forall k: nat :: lo <= k ==> Layer(jumps, s, k) == Layer(jumps, t, k)
    ensures JumpOrder(jumps, s, lo) == JumpOrder(jumps, t, lo)
    decreases |jumps| + 1 - lo
  {
    if lo <= |jumps| {
      JumpOrderOfLayers(jumps, s, t, lo + 1);
    }
  }

  /** Groups below the rank of a leading element do not see it. */
  lemma {:induction false} JumpOrderSkipsLower(jumps: seq<string>, x: Spec, s: seq<Spec>, lo: nat)
    requires Rank(jumps, x.name) < lo
    ensures JumpOrder(jumps, [x] + s, lo) == JumpOrder(jumps, s, lo)
    decreases |jumps| + 1 - lo
  {
    if lo <= |jumps| {
      LayerSkip(jumps, x, s, lo);
      JumpOrderSkipsLower(jumps, x, s, lo + 1);
    }
  }

  lemma LayerSkip(jumps: seq<string>, x: Spec, s: seq<Spec>, k: nat)
    requires Rank(jumps, x.name) != k
    ensures Layer(jumps, [x] + s, k) == Layer(jumps, s, k)
  {
    assert ([x] + s)[1..] == s;
  }

  /** No spec of `s` has a rank below all of theirs. */
  lemma {:induction false} LayerEmptyBelow(jumps: seq<string>, s: seq<Spec>, lo: nat)
    requires RanksFrom(jumps, s, lo + 1)
    ensures Layer(jumps, s, lo) == []
    decreases |s|
  {
    if s != [] {
      assert RanksFrom(jumps, s[1..], lo + 1) by {
        assert forall i :: 0 <= i < |s| - 1 ==> s[1..][i] == s[i + 1];
      }
      LayerEmptyBelow(jumps, s[1..], lo);
    }
  }

  /** A rank-sorted sequence whose ranks are all at least `lo` is its own
      jump order from `lo` on. */
  lemma {:induction false} SortedIsJumpOrder(jumps: seq<string>, s: seq<Spec>, lo: nat)
    requires SortedByRank(jumps, s)
    requires RanksFrom(jumps, s, lo)
    ensures JumpOrder(jumps, s, lo) == s
    decreases |s|, |jumps| + 1 - lo, 1
  {
    if s == [] {
      JumpOrderNil(jumps, lo);
    } else if Rank(jumps, s[0].name) == lo {
      SortedHeadAtLo(jumps, s, lo);
    } else {
      SortedHeadAbove(jumps, s, lo);
    }
  }

  lemma {:induction false} SortedHeadAtLo(jumps: seq<string>, s: seq<Spec>, lo: nat)
    requires s != [] && SortedByRank(jumps, s)
    requires Rank(jumps, s[0].name) == lo
    ensures JumpOrder(jumps, s, lo) == s
    decreases |s|, |jumps| + 1 - lo, 0
  {
    var t := s[1..];
    TailSorted(jumps, s);
    assert JumpOrder(jumps, t, lo) == t by {
      SortedIsJumpOrder(jumps, t, lo);
    }
    assert s == [s[0]] + t;
    HeadLayer(jumps, s[0], t, lo);
  }

  lemma {:induction false} SortedHeadAbove(jumps: seq<string>, s: seq<Spec>, lo: nat)
    requires s != [] && SortedByRank(jumps, s)
    requires lo < Rank(jumps, s[0].name)
    ensures JumpOrder(jumps, s, lo) == s
    decreases |s|, |jumps| + 1 - lo, 0
  {
    AboveHead(jumps, s, lo);
    SortedIsJumpOrder(jumps, s, lo + 1);
    LayerEmptyBelow(jumps, s, lo);
    assert [] + s == s;
  }

  lemma TailSorted(jumps: seq<string>, s: seq<Spec>)
    requires s != [] && SortedByRank(jumps, s)
    ensures SortedByRank(jumps, s[1..])
    ensures RanksFrom(jumps, s[1..], Rank(jumps, s[0].name))
  {
    assert forall i :: 0 <= i < |s| - 1 ==> s[1..][i] == s[i + 1];
  }

  lemma AboveHead(jumps: seq<string>, s: seq<Spec>, lo: nat)
    requires s != [] && SortedByRank(jumps, s)
    requires lo < Rank(jumps, s[0].name)
    ensures lo < |jumps| + 1
    ensures RanksFrom(jumps, s, lo + 1)
  {
    assert forall i :: 0 < i < |s| ==> Rank(jumps, s[0].name) <= Rank(jumps, s[i].name);
  }

  /** Every spec in `s` ranks at least `lo`. */
  predicate RanksFrom(jumps: seq<string>, s: seq<Spec>, lo: nat) {
    forall i :: 0 <= i < |s| ==> lo <= Rank(jumps, s[i].name)
  }

  /** The jump order of `[x] + t` from `x`'s own rank puts `x` first. */
  lemma HeadLayer(jumps: seq<string>, x: Spec, t: seq<Spec>, lo: nat)
    requires Rank(jumps, x.name) == lo
    requires JumpOrder(jumps, t, lo) == t
    ensures JumpOrder(jumps, [x] + t, lo) == [x] + t
  {
    var s := [x] + t;
    assert s[1..] == t;
    calc {
      JumpOrder(jumps, s, lo);
      Layer(jumps, s, lo) + JumpOrder(jumps, s, lo + 1);
      { JumpOrderSkipsLower(jumps, x, t, lo + 1); }
      ([x] + Layer(jumps, t, lo)) + JumpOrder(jumps, t, lo + 1);
      [x] + (Layer(jumps, t, lo) + JumpOrder(jumps, t, lo + 1));
      [x] + JumpOrder(jumps, t, lo);
    }
  }

  lemma {:induction false} JumpOrderNil(jumps: seq<string>, lo: nat)
    ensures JumpOrder(jumps, [], lo) == []
    decreases |jumps| + 1 - lo
  {
    if lo <= |jumps| {
      JumpOrderNil(jumps, lo + 1);
    }
  }

  /** The sort computes the intended order: jump-listed specs first, by
      their first position in the jump list, then the unlisted ones, each
      group in its original order. */
  lemma SortIsJumpOrder(jumps: seq<string>, specs: seq<Spec>)
    ensures SortSpecs(jumps, specs) == JumpOrder(jumps, specs, 0)
  {
    var r := SortSpecs(jumps, specs);
    forall k: nat | 0 <= k
      ensures Layer(jumps, r, k) == Layer(jumps, specs, k)
    {
      SortStable(jumps, specs, k);
    }
    JumpOrderOfLayers(jumps, r, specs, 0);
    SortedIsJumpOrder(jumps, r, 0);
  }

  /** Jump-listed specs come before every spec the jump list does not name. */
  lemma ListedFirst(jumps: seq<string>, specs: seq<Spec>, i: nat, j: nat)
    requires i < j < |SortSpecs(jumps, specs)|
    requires SortSpecs(jumps, specs)[j].name in jumps
    ensures SortSpecs(jumps, specs)[i].name in jumps
  {
    var r := SortSpecs(jumps, specs);
    RankIsFirstIndex(jumps, r[i].name);
    RankIsFirstIndex(jumps, r[j].name);
  }

  /** The jump check of `parse_main`: every jump name must be one of `keys`. */
  function CheckJumps(keys: seq<string>, jumps: seq<string>): (r: Result<(), Error>)
    ensures r.Success? <==> forall i :: 0 <= i < |jumps| ==> jumps[i] in keys
    ensures r.Failure? ==> r.error == UnknownJump
  {
    if jumps == [] then Success(())
    else if jumps[0] !in keys then Failure(UnknownJump)
    else
      var rest := CheckJumps(keys, jumps[1..]);
      assert forall i :: 1 <= i < |jumps| ==> jumps[i] == jumps[1..][i - 1];
      rest
  }

  // ---------------------------------------------------------------------
  // Which specs run (`iter_enabled_specs`, `has_non_empty`)
  // ---------------------------------------------------------------------

  /** A batch-file line that names something: after stripping it is
      non-empty and not a `#` comment. */
  predicate Meaningful(line: string) {
    var t := Strip(line);
    t != [] && t[0] != '#'
  }

  /** `has_non_empty`: the scan over the file's lines stops at the first
      meaningful one; it finds one iff some line is meaningful. */
  predicate HasNonEmpty(lines: seq<string>): (b: bool)
    ensures b <==> exists i :: 0 <= i < |lines| && Meaningful(lines[i])
    decreases |lines|
  {
    if lines == [] then false
    else if Meaningful(lines[0]) then true
    else
      var rest := HasNonEmpty(lines[1..]);
      assert forall i :: 0 < i < |lines| ==> lines[i] == lines[1..][i - 1];
      rest
  }

  /** `if self.urls:` — a url string that is present and non-empty. */
  predicate HasUrls(spec: Spec) {
    spec.urls.Some? && spec.urls.value != []
  }

  /** `spec.get_batch()`: the raw `batch` option, if any. An option read
      from the ini file comes back as the string it was written as, `:flag:`
      included; a missing or `None` option gives nothing. */
  function Batch(spec: Spec): (r: Option<string>)
    ensures Lookup(spec.options, "batch").None? ==> r.None?
    ensures Lookup(spec.options, "batch") == Some(Absent) ==> r.None?
    ensures forall raw :: Lookup(spec.options, "batch") == Some(Classify(raw)) ==> r == Some(raw)
  {
    match Lookup(spec.options, "batch")
    case None => None
    case Some(v) => Raw(v)
  }

  /** Whether `iter_enabled_specs` yields `spec`. Batch files are read from
      `files`; a batch path that is not there fails like `open` would. */
  function Runnable(spec: Spec, files: map<string, seq<string>>): (r: Result<bool, Error>)
    ensures r.Failure? <==>
      && spec.enabled && !HasUrls(spec)
      && Batch(spec).Some? && Batch(spec).value != [] && Batch(spec).value !in files
    ensures r.Failure? ==> r.error == BatchUnreadable(Batch(spec).value)
    ensures r == Success(true) <==>
      && spec.enabled
      && (|| HasUrls(spec)
          || (&& Batch(spec).Some? && Batch(spec).value != []
              && Batch(spec).value in files
              && exists i :: 0 <= i < |files[Batch(spec).value]| && Meaningful(files[Batch(spec).value][i])))
  {
    if !spec.enabled then Success(false)
    else if HasUrls(spec) then Success(true)
    else match Batch(spec)
      case None => Success(false)
      case Some(path) =>
        if path == [] then Success(false)
        else if path !in files then Failure(BatchUnreadable(path))
        else Success(HasNonEmpty(files[path]))
  }

  /** `a` is `b` with some elements left out, the rest in their order. */
  predicate Subsequence<T(==)>(a: seq<T>, b: seq<T>)
    decreases |b|
  {
    || a == []
    || (&& b != []
        && ((a[0] == b[0] && Subsequence(a[1..], b[1..])) || Subsequence(a, b[1..])))
  }

  /** `iter_enabled_specs` drained: the specs the loop visits, in their
      order. The generator stops at the first spec whose batch file cannot
      be opened; draining it then fails with that spec's error. */
  function EnabledSpecs(specs: seq<Spec>, files: map<string, seq<string>>): (r: Result<seq<Spec>, Error>)
    ensures r.Success? <==> forall i :: 0 <= i < |specs| ==> Runnable(specs[i], files).Success?
    ensures r.Failure? ==>
      exists i :: (&& 0 <= i < |specs| && Runnable(specs[i], files) == Failure(r.error)
                   && forall j :: 0 <= j < i ==> Runnable(specs[j], files).Success?)
    ensures r.Success? ==> Subsequence(r.value, specs)
    ensures r.Success? ==> forall s :: s in r.value ==> Runnable(s, files) == Success(true)
    ensures r.Success? ==> forall s :: s in specs && Runnable(s, files) == Success(true) ==> s in r.value
    decreases |specs|
  {
    if specs == [] then Success([])
    else
      var here := Runnable(specs[0], files);
      if here.Failure? then
        Failure(here.error)
      else
        var rest := EnabledSpecs(specs[1..], files);
        AllRunnableCons(specs, files);
        if rest.Failure? then
          FirstFailureCons(specs, files, rest.error);
          Failure(rest.error)
        else
          assert specs == [specs[0]] + specs[1..];
          SubsequenceCons(specs[0], rest.value, specs[1..]);
          assert forall s :: s in specs ==> s == specs[0] || s in specs[1..];
          Success((if here.value then [specs[0]] else []) + rest.value)
  }

  lemma SubsequenceCons<T>(x: T, a: seq<T>, b: seq<T>)
    requires Subsequence(a, b)
    ensures Subsequence([x] + a, [x] + b)
    ensures Subsequence([] + a, [x] + b)
  {
    assert ([x] + a)[1..] == a && ([x] + b)[1..] == b && [] + a == a;
  }

  lemma AllRunnableCons(specs: seq<Spec>, files: map<string, seq<string>>)
    requires specs != []
    ensures (forall i :: 0 <= i < |specs| ==> Runnable(specs[i], files).Success?)
        <==> Runnable(specs[0], files).Success?
             && forall i :: 0 <= i < |specs[1..]| ==> Runnable(specs[1..][i], files).Success?
  {
    assert forall i :: 0 < i < |specs| ==> specs[i] == specs[1..][i - 1];
  }

  /** A first failure in the tail, behind a head that succeeds, is the
      first failure of the whole sequence. */
  lemma FirstFailureCons(specs: seq<Spec>, files: map<string, seq<string>>, e: Error)
    requires specs != [] && Runnable(specs[0], files).Success?
    requires exists i :: (&& 0 <= i < |specs[1..]| && Runnable(specs[1..][i], files) == Failure(e)
                          && forall j :: 0 <= j < i ==> Runnable(specs[1..][j], files).Success?)
    ensures exists i :: (&& 0 <= i < |specs| && Runnable(specs[i], files) == Failure(e)
                         && forall j :: 0 <= j < i ==> Runnable(specs[j], files).Success?)
  {
    var i :| (&& 0 <= i < |specs[1..]| && Runnable(specs[1..][i], files) == Failure(e)
              && forall j :: 0 <= j < i ==> Runnable(specs[1..][j], files).Success?);
    assert specs[i + 1] == specs[1..][i];
    forall j | 0 <= j < i + 1
      ensures Runnable(specs[j], files).Success?
    {
      if j > 0 {
        assert specs[j] == specs[1..][j - 1];
      }
    }
  }
}

=== FILE: text.dfy ===
/** The few Python string operations the downloader relies on: `strip()`,
    argument-less `split()`, and `split(sep)` / `sep.join(...)`. */
module Text {

  /** The characters Python's `str.strip()` and `str.split()` treat as
      whitespace. */
  predicate IsSpace(c: char) {
    || c == ' '
    || ('\t' <= c <= '\r')
    || ('\U{1C}' <= c <= '\U{1F}')
    || c == '\U{85}' || c == '\U{A0}' || c == '\U{1680}'
    || ('\U{2000}' <= c <= '\U{200A}')
    || c == '\U{2028}' || c == '\U{2029}' || c == '\U{202F}'
    || c == '\U{205F}' || c == '\U{3000}'
  }

  predicate AllSpace(s: string) {
    forall i :: 0 <= i < |s| ==> IsSpace(s[i])
  }

  predicate NoSpace(s: string) {
    forall i :: 0 <= i < |s| ==> !IsSpace(s[i])
  }

  /** Neither end of `s` is whitespace. */
  predicate Trimmed(s: string) {
    s == [] || (!IsSpace(s[0]) && !IsSpace(s[|s| - 1]))
  }

  /** `s.lstrip()`: drops a whitespace prefix, and only that. */
  function TrimStart(s: string): (r: string)
    ensures |r| <= |s| && r == s[|s| - |r|..]
    ensures AllSpace(s[..|s| - |r|])
    ensures r == [] || !IsSpace(r[0])
  {
    if s != [] && IsSpace(s[0]) then
      var r := TrimStart(s[1..]);
      SpacePrefixCons(s, r);
      r
    else s
  }

  lemma SpacePrefixCons(s: string, r: string)
    requires s != [] && IsSpace(s[0])
    requires |r| <= |s| - 1 && r == s[1..][|s| - 1 - |r|..] && AllSpace(s[1..][..|s| - 1 - |r|])
    ensures r == s[|s| - |r|..] && AllSpace(s[..|s| - |r|])
  {
    var k := |s| - |r|;
    assert s[1..][k - 1..] == s[k..];
    forall i | 0 <= i < k
      ensures IsSpace(s[..k][i])
    {
      if i > 0 {
        assert s[..k][i] == s[1..][..k - 1][i - 1];
      }
    }
  }

  /** `s.rstrip()`: drops a whitespace suffix, and only that. */
  function TrimEnd(s: string): (r: string)
    ensures |r| <= |s| && r == s[..|r|]
    ensures AllSpace(s[|r|..])
    ensures r == [] || !IsSpace(r[|r| - 1])
  {
    if s != [] && IsSpace(s[|s| - 1]) then
      var r := TrimEnd(s[..|s| - 1]);
      SpaceSuffixSnoc(s, r);
      r
    else s
  }

  lemma SpaceSuffixSnoc(s: string, r: string)
    requires s != [] && IsSpace(s[|s| - 1])
    requires |r| <= |s| - 1 && r == s[..|s| - 1][..|r|] && AllSpace(s[..|s| - 1][|r|..])
    ensures r == s[..|r|] && AllSpace(s[|r|..])
  {
    var k := |r|;
    assert s[..|s| - 1][..k] == s[..k];
    forall i | 0 <= i < |s| - k
      ensures IsSpace(s[k..][i])
    {
      if i < |s| - 1 - k {
        assert s[k..][i] == s[..|s| - 1][k..][i];
      }
    }
  }

  /** `s.strip()`. */
  function Strip(s: string): (r: string)
    ensures |r| <= |s|
    ensures Trimmed(r)
  {
    TrimEnd(TrimStart(s))
  }

  lemma {:induction false} TrimStartSkips(a: string, t: string)
    requires AllSpace(a)
    requires t == [] || !IsSpace(t[0])
    ensures TrimStart(a + t) == t
    decreases |a|
  {
    if a != [] {
      assert (a + t)[1..] == a[1..] + t;
      TrimStartSkips(a[1..], t);
    } else {
      assert a + t == t;
    }
  }

  lemma {:induction false} TrimEndSkips(t: string, b: string)
    requires AllSpace(b)
    requires t == [] || !IsSpace(t[|t| - 1])
    ensures TrimEnd(t + b) == t
    decreases |b|
  {
    if b != [] {
      assert (t + b)[..|t + b| - 1] == t + b[..|b| - 1];
      TrimEndSkips(t, b[..|b| - 1]);
    } else {
      assert t + b == t;
    }
  }

  /** `Strip` is exactly "the part between the whitespace borders": whenever
      `s` splits into whitespace, a trimmed middle and whitespace, the middle
      is what `Strip` returns. */
  lemma StripIsMiddle(a: string, m: string, b: string)
    requires AllSpace(a) && AllSpace(b) && Trimmed(m)
    ensures Strip(a + m + b) == m
  {
    if m == [] {
      assert a + m + b == a + b;
      AllSpaceAppend(a, b);
      TrimStartSkips(a + b, []);
      assert a + b + [] == a + b;
    } else {
      assert a + m + b == a + (m + b);
      TrimStartSkips(a, m + b);
      TrimEndSkips(m, b);
    }
  }

  /** Number of leading non-whitespace characters. */
  function WordLength(t: string): (n: nat)
    ensures n <= |t|
    ensures NoSpace(t[..n])
    ensures n < |t| ==> IsSpace(t[n])
  {
    if t == [] || IsSpace(t[0]) then 0 else 1 + WordLength(t[1..])
  }

  /** `s.split()`: the maximal runs of non-whitespace, in order. */
  function Words(s: string): (ws: seq<string>)
    ensures forall i :: 0 <= i < |ws| ==> ws[i] != [] && NoSpace(ws[i])
    decreases |s|
  {
    var t := TrimStart(s);
    if t == [] then []
    else
      var n := WordLength(t);
      var rest := Words(t[n..]);
      WordsConsShape(t[..n], rest);
      [t[..n]] + rest
  }

  lemma WordsConsShape(w: string, rest: seq<string>)
    requires w != [] && NoSpace(w)
    requires forall i :: 0 <= i < |rest| ==> rest[i] != [] && NoSpace(rest[i])
    ensures forall i :: 0 <= i < |[w] + rest| ==> ([w] + rest)[i] != [] && NoSpace(([w] + rest)[i])
  {
    forall i | 0 <= i < |[w] + rest|
      ensures ([w] + rest)[i] != [] && NoSpace(([w] + rest)[i])
    {
      if i > 0 {
        assert ([w] + rest)[i] == rest[i - 1];
      }
    }
  }

  /** `' '.join(ws)`. */
  function Unwords(ws: seq<string>): string
  {
    if ws == [] then []
    else if |ws| == 1 then ws[0]
    else ws[0] + " " + Unwords(ws[1..])
  }

  lemma WordLengthOf(w: string, rest: string)
    requires NoSpace(w)
    requires rest == [] || IsSpace(rest[0])
    ensures WordLength(w + rest) == |w|
    decreases |w|
  {
    if w != [] {
      assert (w + rest)[1..] == w[1..] + rest;
      WordLengthOf(w[1..], rest);
    } else {
      assert w + rest == rest;
    }
  }

  /** A leading run of whitespace does not change `split()`. */
  lemma WordsSkipSpace(a: string, s: string)
    requires AllSpace(a)
    ensures Words(a + s) == Words(s)
  {
    TrimStartSpacePrefix(a, s);
    WordsDependOnTrim(a + s, s);
  }

  lemma TrimStartSpacePrefix(a: string, s: string)
    requires AllSpace(a)
    ensures TrimStart(a + s) == TrimStart(s)
  {
    var t := TrimStart(s);
    var k := |s| - |t|;
    SplitBehindPrefix(a, s, k);
    AllSpaceAppend(a, s[..k]);
    TrimStartSkips(a + s[..k], t);
  }

  /** Cutting `s` at `k` behind a prefix `a`. */
  lemma SplitBehindPrefix(a: string, s: string, k: nat)
    requires k <= |s|
    ensures a + s == (a + s[..k]) + s[k..]
  {
    assert s == s[..k] + s[k..];
  }

  lemma AllSpaceAppend(x: string, y: string)
    requires AllSpace(x) && AllSpace(y)
    ensures AllSpace(x + y)
  {
    forall i | 0 <= i < |x + y|
      ensures IsSpace((x + y)[i])
    {
      if i < |x| {
        assert (x + y)[i] == x[i];
      } else {
        assert (x + y)[i] == y[i - |x|];
      }
    }
  }

  lemma WordsDependOnTrim(s1: string, s2: string)
    requires TrimStart(s1) == TrimStart(s2)
    ensures Words(s1) == Words(s2)
  {
  }

  /** A non-empty word followed by a break splits off as the first word. */
  lemma WordsCons(w: string, rest: string)
    requires w != [] && NoSpace(w)
    requires rest == [] || IsSpace(rest[0])
    ensures Words(w + rest) == [w] + Words(rest)
  {
    var s := w + rest;
    TrimStartSkips([], s);
    assert [] + s == s;
    WordLengthOf(w, rest);
    assert s[..|w|] == w;
    assert s[|w|..] == rest;
  }

  /** Joining words with single spaces and splitting again gives the words
      back: `split()` recovers every space-free, non-empty name list. */
  lemma {:induction false} WordsUnwords(ws: seq<string>)
    requires forall i :: 0 <= i < |ws| ==> ws[i] != [] && NoSpace(ws[i])
    ensures Words(Unwords(ws)) == ws
    decreases |ws|
  {
    if ws == [] {
      assert Words([]) == [];
    } else if |ws| == 1 {
      assert [ws[0]] + [] == ws;
      WordsCons(ws[0], []);
      assert ws[0] + [] == ws[0];
      assert Words([]) == [];
    } else {
      var u := Unwords(ws[1..]);
      assert ws == [ws[0]] + ws[1..];
      assert Unwords(ws) == ws[0] + (" " + u);
      calc {
        Words(Unwords(ws));
        { WordsCons(ws[0], " " + u); }
        [ws[0]] + Words(" " + u);
        { WordsSkipSpace(" ", u); }
        [ws[0]] + Words(u);
        { WordsUnwords(ws[1..]); }
        [ws[0]] + ws[1..];
      }
    }
  }

  /** `s.split(sep)`: pieces between occurrences of `sep`, empties kept. */
  function Split(s: string, sep: char): (parts: seq<string>)
    ensures |parts| >= 1
    ensures forall i :: 0 <= i < |parts| ==> sep !in parts[i]
  {
    if s == [] then [[]]
    else
      var rest := Split(s[1..], sep);
      if s[0] == sep then [[]] + rest
      else [[s[0]] + rest[0]] + rest[1..]
  }

  /** `sep.join(parts)`. */
  function Join(parts: seq<string>, sep: char): string
  {
    if parts == [] then []
    else if |parts| == 1 then parts[0]
    else parts[0] + [sep] + Join(parts[1..], sep)
  }

  lemma {:induction false} JoinSplit(s: string, sep: char)
    ensures Join(Split(s, sep), sep) == s
    decreases |s|
  {
    if s != [] {
      var rest := Split(s[1..], sep);
      JoinSplit(s[1..], sep);
      if s[0] == sep {
        assert Split(s, sep) == [[]] + rest;
        assert ([[]] + rest)[1..] == rest;
      } else {
        var parts := [[s[0]] + rest[0]] + rest[1..];
        assert parts[1..] == rest[1..];
        if |rest| == 1 {
          assert Join(rest, sep) == rest[0];
        } else {
          assert Join(rest, sep) == rest[0] + [sep] + Join(rest[1..], sep);
        }
      }
    }
  }

  lemma {:induction false} SplitJoin(parts: seq<string>, sep: char)
    requires |parts| >= 1
    requires forall i :: 0 <= i < |parts| ==> sep !in parts[i]
    ensures Split(Join(parts, sep), sep) == parts
    decreases |parts|, |parts[0]|
  {
    var p := parts[0];
    if p == [] {
      if |parts| > 1 {
        assert Join(parts, sep) == [sep] + Join(parts[1..], sep);
        assert ([sep] + Join(parts[1..], sep))[1..] == Join(parts[1..], sep);
        SplitJoin(parts[1..], sep);
        assert [[]] + parts[1..] == parts;
      }
    } else {
      var tail := [p[1..]] + parts[1..];
      assert tail[1..] == parts[1..];
      assert forall i :: 0 <= i < |tail| ==> sep !in tail[i] by {
        forall i | 0 <= i < |tail|
          ensures sep !in tail[i]
        {
          if i == 0 {
            assert sep !in p;
          } else {
            assert tail[i] == parts[i];
          }
        }
      }
      if |parts| == 1 {
        assert Join(parts, sep) == p;
        assert Join(tail, sep) == p[1..];
      } else {
        assert Join(parts, sep) == p + [sep] + Join(parts[1..], sep);
        assert Join(tail, sep) == p[1..] + [sep] + Join(parts[1..], sep);
      }
      assert Join(parts, sep) == [p[0]] + Join(tail, sep);
      assert Join(parts, sep)[1..] == Join(tail, sep);
      SplitJoin(tail, sep);
      assert p[0] != sep;
      var j := Join(parts, sep);
      assert j[0] == p[0] && j[1..] == Join(tail, sep);
      assert Split(j, sep) == [[p[0]] + tail[0]] + tail[1..];
      assert [p[0]] + p[1..] == p;
      assert [p] + parts[1..] == parts;
    }
  }
}
